=== FILE: README.md ===
# Input cursor of `parse`, modelled in Dafny

The package's `Input` is a byte buffer that always ends in a 0 sentinel.
Over it sit four things:

- a selection `[start, pos)` that a lexer grows with `Move` and cuts off with `Shift`;
- a non-validating UTF-8 peeker, `PeekRune`;
- 1-based line and column tracking;
- the error a load left behind.

Line and column are kept two ways. `Move` updates them incrementally from the bytes it passes over. `PositionAt` recomputes them from scratch by scanning the buffer.

The model is functional. A cursor is an immutable `Input` record, and every Go method on `*Input` becomes a function from the old cursor to the new one (and to its result, if it has one).

| module | file | content |
|---|---|---|
| `GoBytes` | `gobytes.dfy` | bytes, Go's `bytes.Count` and `bytes.LastIndexByte`, and slice lemmas |
| `Utf8` | `utf8.dfy` | Go's `utf8.RuneCount`, following Go's leading-byte table; `utf8.Valid`; the UTF-8 encoding |
| `Parse` | `input.dfy` | the cursor and every method of `input.go`, as written |
| `Loading` | `loading.dfy` | construction, `Bytes()` round trip, load errors, `Restore` |
| `Lookahead` | `lookahead.dfy` | sentinel and EOF, `PeekRune` decoding, and the look-ahead guard |
| `Tracking` | `tracking.dfy` | the incremental `Move` update against the `PositionAt` scan |
| `Selection` | `selection.dfy` | marks, rewinding, lexemes tiling the input |
| `Traces` | `traces.dfy` | the concrete traces of `input_position_test.go` |
| `Seeking` | `seeking.dfy` | going back to a mark: the code as written, and the behaviour its tests expect |

The central invariant is `Tracking.Consistent`. A cursor satisfies it when its cached `line`, `col` and `lastNewline` equal a scan of the bytes before `pos`.

- A single `Move` from `Reset` always agrees with `PositionAt`, for any bytes at all.
- Several moves in a row are proved to keep agreeing when each span between the last newline and the read head ends on a rune boundary. Without that they can drift. Go's `RuneCount` counts a truncated sequence as one rune per byte, so a move that splits a multi-byte rune adds two columns where a rescan counts one. `Traces.SplitRuneDrifts` shows it: two `Move(1)` over "α" reach column 3, where `PositionAt(2)` gives (1,2).
- Agreement over any sequence of moves is proved for ASCII content (`Tracking.AsciiMovesStayConsistent`).
- Agreement over any sequence of `MoveRune` calls is proved for valid UTF-8 (`Tracking.MoveRuneTracks`).

`Parse` models the code as written. An out-of-range `Rewind` leaves a cursor that Go still works with, and the model follows it:

- `Offset`, `Pos`, `Position`, `Err`, `PeekErr`, `Rewind`, `Skip`, `Reset` and `Bytes` take any cursor whose buffer ends in the sentinel.
- `Peek` and `PeekRune` take any such cursor whose bytes read lie in the buffer.
- `Lexeme` and `Shift` take any ordered selection that ends no further than one past the sentinel.
- `Move` with a positive count, and `MoveRune`, ask for a valid cursor (see "## Left out").

The model includes the three places where it differs from what its own tests expect: the `PeekRune(k)` guard, `Rewind`, and a negative `Move`. See "## Findings". `Seeking` and `Lookahead.RuneWidthAhead` give the intended behaviour next to it.

## Model

| member | source | states |
|---|---|---|
| GoBytes.Count | input.go:144 | the number of `'\n'` bytes is at most the length of the span |
| GoBytes.LastIndexByte | input.go:147 | the result is -1 or an in-range index holding the byte |
| GoBytes.CountIsZeroWhenNoLast | input.go:145-147 | the span holds a `'\n'` exactly when `LastIndexByte` finds one, so the two branches of `Move` are exhaustive and consistent |
| GoBytes.CountUpToLast | input.go:223-225 | counting newlines up to and including the last one counts them all, so `PositionAt`'s line is the number of newlines before the offset plus one |
| GoBytes.LastIndexIsLast | input.go:147 | no `'\n'` follows the index found; -1 means there is none at all |
| GoBytes.CountAppend | input.go:144-146 | newline counts add up over adjacent spans, which is why `line += newlines` matches a rescan |
| GoBytes.LastIndexAppend | input.go:147 | the last newline of a joined span is in the second part if it has one, else in the first |
| Utf8.Step | input.go:148-150 | one decoder step consumes 1 to 4 bytes; more than one only for a complete sequence of the announced size |
| Utf8.RuneCount | input.go:150 | the rune count never exceeds the byte count |
| Utf8.RuneCountAppend | input.go:150 | `col += RuneCount(moved)` equals a recount when the earlier span ends on a rune boundary |
| Utf8.RuneCountAppendAscii | input.go:150 | appending one ASCII byte adds exactly one rune, even after malformed bytes |
| Utf8.AsciiRuneCount | input.go:227 | in ASCII every byte is one column |
| Utf8.FirstRuneNewlines | input.go:144-150 | a `'\n'` is always a rune of its own and never inside a multi-byte rune, so decoding never hides a line break |
| Utf8.ValidFirstRune | input.go:156-159 | in valid UTF-8 the first step is one valid rune and the remainder stays valid |
| Utf8.EncodeIsOneRune | input.go:119-129 | the encoding of every scalar value is one valid rune of its own length |
| Parse.NewInputBytes | input.go:58-86 | a valid cursor at the origin; `Len()` is the input length; the buffer is the input followed by the 0 sentinel; empty input gets the shared one-byte null buffer; spare capacity records the displaced byte |
| Parse.NewInput | input.go:28-49 | a failed read gives the error state over the null buffer at line 1, column 1; no reader is empty input; read content behaves as `NewInputBytes` of it |
| Parse.Restore | input.go:88-94 | the content and indices are kept; a displaced byte is written back past the content and the cursor is disarmed; with nothing displaced, nothing changes |
| Parse.PeekErr | input.go:101-109 | on any cursor: a load error is reported at every offset; otherwise nil exactly while `pos+k < Len()`, and `io.EOF` from there on |
| Parse.Err | input.go:96-99 | on any cursor: nil exactly when there is no load error and the read head is before the end |
| Parse.Peek | input.go:111-116 | on any cursor whose index lies in the buffer: the content byte `k` past the read head, or the 0 sentinel at `Len()` |
| Lookahead.PeekAfterRewind | input.go:111-116 | after any `Rewind`, even one that leaves the read head before the content, `Peek(k)` reads the content byte at `start + mark + k` |
| Parse.RuneWidth | input.go:122-126 | the width `PeekRune` infers is between 1 and 4 |
| Parse.PeekRune | input.go:118-130 | on any cursor whose bytes read lie in the buffer: the length is 1 exactly when the leading byte is below 0xC0 or fewer than two bytes are left, and a one-byte rune is the byte itself; every result is below 2^21 |
| Parse.PeekRuneAtHead | input.go:119-130 | at the read head the peek stays inside the buffer, and a width above one never reaches past the content |
| Parse.Move | input.go:132-153 | a non-positive count changes nothing, on any cursor, before the read head is looked at; otherwise `pos` becomes `min(pos+n, Len())`; buffer, `start` and error are kept, so `start <= pos <= Len()` is preserved |
| Parse.MoveRune | input.go:155-159 | it is `Move` by the width `PeekRune(0)` infers: it advances 1 to 4 bytes before the end and never passes `Len()`; at the end it does nothing |
| Parse.Pos | input.go:161-164 | on any cursor, `start + Pos() == pos`; the mark is non-negative exactly when the selection is ordered |
| Parse.Rewind | input.go:166-169 | `pos` becomes `start + mark` unclamped, with line and column unchanged; buffer and sentinel are kept whatever the mark, and a valid cursor stays valid exactly when the target lies in `[0, Len()]` |
| Parse.Lexeme | input.go:171-174 | `Pos()` bytes for any ordered selection ending at most at `len(buf)`; while the read head is within the content, they are the selected content bytes and never the sentinel |
| Selection.LexemePastSentinel | input.go:171-174 | a `Rewind` one past the sentinel still lets `Lexeme` slice, and the selection is the rest of the content followed by the 0 sentinel |
| Parse.Skip | input.go:176-179 | `start` moves up to `pos`, so the selection is empty and ordered; buffer, read head, line, column, last newline and error are unchanged; a valid cursor stays valid |
| Parse.Shift | input.go:181-186 | on any selection `Lexeme` accepts, it returns `Lexeme()` and leaves the cursor `Skip()` leaves, with an empty selection |
| Parse.Offset | input.go:188-191 | the read head of any cursor, even one an out-of-range `Rewind` left; on a valid cursor it lies in `[0, Len()]` |
| Loading.LenExcludesSentinel | input.go:198-201 | `Len()` counts the content and not the sentinel: the byte at `Len()` is the 0 sentinel, `Bytes()` is `Len()` bytes long, and a load error leaves `Len() == 0` |
| Parse.Bytes | input.go:193-196 | the content is `Len()` bytes, and adding the sentinel gives the whole buffer |
| Parse.Reset | input.go:203-210 | from any cursor whose buffer ends in the sentinel, wherever its read head was left: a valid cursor with the selection back at the origin, line 1, column 1 and no last newline; buffer, error and displaced byte are kept |
| Parse.Position | input.go:212-215 | the cached line and column of any cursor; on a valid cursor both are at least 1 |
| Parse.ScanPosition | input.go:223-228 | the scanned line and column are at least 1 |
| Parse.PositionAt | input.go:217-229 | line and column are at least 1 for every non-negative offset |
| Loading.BytesRoundTrip | input.go:58-86 | `Bytes()` gives back exactly the input, `Len()` is its length, and the cursor starts at offset 0 with nothing selected |
| Loading.EmptyInputIsAtEof | input.go:66-68 | empty input is the null buffer, at EOF from the start, and its only byte is the sentinel |
| Loading.NewInputLoads | input.go:28-49 | content loaded through a reader comes back from `Bytes()` with no error; no reader means EOF at once |
| Loading.LoadErrorEverywhere | input.go:38-44 | after a failed read the input is empty and every `PeekErr` and `Err` reports the read error, never `io.EOF` |
| Loading.RestoreIdempotent | input.go:89-94 | a second `Restore` does nothing |
| Loading.RestoreGivesBackStorage | input.go:71-80 | when the sentinel was written into spare capacity, `Restore` puts the caller's byte back behind the content; otherwise there is nothing to give back |
| Loading.RestoreDropsSentinel | input.go:89-94 | a freshly loaded cursor ends in the sentinel; after `Restore` writes back the caller's byte it still does exactly when that byte was 0 |
| Lookahead.SentinelAtEnd | input.go:102-116 | `Peek` at `Len()` is 0; with no load error `PeekErr` reports EOF there, and `Err()` is EOF exactly at the end |
| Lookahead.PeekAgreesWithPeekErr | input.go:102-116 | no error means `Peek` returns a content byte; EOF means it returns the sentinel |
| Lookahead.PackTwo | input.go:124-125 | the two-byte mask and shift recover the code point of a two-byte encoding |
| Lookahead.PackThree | input.go:126-127 | the three-byte mask and shift recover the code point |
| Lookahead.PackFour | input.go:129 | the four-byte mask and shift recover the code point |
| Lookahead.PeekRuneDecodes | input.go:119-130 | over the encoding of any code point, `PeekRune` returns that code point and the encoding's length |
| Lookahead.PeekRuneAheadReadsSentinel | input.go:122-125 | over "A\xC3", `PeekRune(1)` decodes a two-byte rune whose second byte is the sentinel |
| Lookahead.PeekRuneAheadOutOfRange | input.go:126-127 | over "AB\xF0", `Peek(2)` is in range but `PeekRune(2)` infers three bytes that run past the buffer |
| Lookahead.RuneWidthAhead | input.go:122-126 | with the bytes left counted from `pos+k`, the width is 1 or stays inside the content |
| Lookahead.WidthsAgreeAtHead | input.go:156-159 | at the read head both guards give the same width, so `MoveRune` is unaffected |
| Lookahead.AheadStaysInContent | input.go:122-126 | the intended guard never decodes past the content and never infers more than the guard as written |
| Tracking.ScanCounts | input.go:223-227 | `PositionAt`'s line counts every newline before the offset, and its column counts the runes after the last newline |
| Tracking.PositionAtScan | input.go:218-228 | `PositionAt` is that scan at the offset clamped to the buffer |
| Tracking.ConsistentIsPositionAt | input.go:218-229 | a consistent cursor's `Position()` is `PositionAt(pos)` |
| Tracking.PositionAtClamps | input.go:219-221 | every offset past the buffer gives the same answer as the whole buffer, and line and column are at least 1 |
| Tracking.ScanPastAsciiByte | input.go:223-227 | scanning one more ASCII byte other than `'\n'` keeps the line and the last newline and adds one column |
| Tracking.PastEndLine | input.go:219-225 | clamping to the whole buffer keeps the line of `Len()` |
| Tracking.PastEndColumn | input.go:219-227 | clamping to the whole buffer counts the sentinel as one more column |
| Tracking.PositionAtPastEnd | input.go:219-227 | `PositionAt` past the end is the line of `PositionAt(Len())` and one column further, not `PositionAt(Len())` itself |
| Tracking.ResetIsConsistent | input.go:204-210 | `Reset` leaves a consistent cursor at (1,1), which is `PositionAt(0)` |
| Tracking.NothingPassedBackward | input.go:134-136 | a non-positive move passes over no bytes |
| Tracking.MoveCountsLines | input.go:144-146 | each `'\n'` passed over adds one line, and nothing else does |
| Tracking.MoveWithinLine | input.go:149-150 | passing no `'\n'` adds the runes passed to the column and keeps the last newline |
| Tracking.MoveAcrossLines | input.go:145-148 | passing a `'\n'` makes the last one passed the last newline and restarts the column after it |
| Tracking.MoveKeepsLine | input.go:143-146 | a line equal to the newlines before `pos` plus one stays so after any move |
| Tracking.MoveKeepsLastNewline | input.go:143-147 | a correct last-newline index stays correct after any move |
| Tracking.MoveKeepsColumnWithinLine | input.go:149-150 | within a line, the incremental column equals a recount from the last newline when the line so far ends on a rune boundary |
| Tracking.MoveKeepsColumn | input.go:143-151 | the last newline stays before the read head, and the column stays a recount from the last newline, across both branches |
| Tracking.MoveStaysAhead | input.go:133-140 | `Move` never goes back and never passes `Len()`, whatever the count |
| Tracking.MovePreservesConsistency | input.go:133-153 | `Move` keeps a consistent cursor consistent when the line so far ends on a rune boundary |
| Tracking.PositionAtReadsBuffer | input.go:218-229 | `PositionAt` depends on the buffer alone, not on the cursor state |
| Tracking.MoveFromResetAgrees | input_position_test.go:199-212 | for any bytes and any `o >= 0`, one `Move(o)` from `Reset` is consistent, lands at `min(o, Len())`, and reports `PositionAt` of it |
| Tracking.MoveAll | input.go:133-153 | a sequence of moves stays valid over the same buffer and never moves backwards |
| Tracking.AsciiSpanIsWhole | input.go:150 | any span of ASCII content ends on a rune boundary |
| Tracking.AsciiMovesStayConsistent | input.go:142-151 | over ASCII content any sequence of moves keeps `Position()` equal to `PositionAt(pos)` |
| Tracking.PeekRuneMatchesDecoder | input.go:119-126 | over valid UTF-8 the width `PeekRune(0)` infers is the width Go's decoder reads |
| Tracking.ResetIsTracked | input.go:204-210 | a reset cursor over valid UTF-8 satisfies the tracking invariant |
| Tracking.ResetTracksContent | input.go:204-210 | the same, with the content taken as the buffer before `Len()` |
| Tracking.MoveRunePassesOneRune | input.go:156-159 | over valid UTF-8, `MoveRune` passes exactly one decoded code point and leaves the rest ahead |
| Tracking.MoveRuneStartsLine | input.go:145-148 | after `MoveRune` over `'\n'`, the new line is empty so far |
| Tracking.MoveRuneExtendsLine | input.go:149-150 | after `MoveRune` over any other code point, the line so far is still valid UTF-8 |
| Tracking.MoveRuneKeepsLineValid | input.go:143-151 | after any `MoveRune`, the line so far is valid UTF-8 |
| Tracking.MoveRuneKeepsTracked | input.go:156-159 | `MoveRune` keeps the tracking invariant |
| Tracking.MoveRuneOverNewline | input.go:145-148 | `MoveRune` over `'\n'` gives the next line at column 1 |
| Tracking.MoveRuneOverOther | input.go:149-150 | `MoveRune` over any other code point adds one column, whatever its byte length |
| Tracking.MoveRuneTracks | input.go:156-159 | over valid UTF-8, `MoveRune` keeps `Position()` equal to `PositionAt(pos)` and counts columns in code points |
| Selection.RewindToPos | input.go:162-169 | `Rewind(Pos())` is the identity |
| Selection.PosAfterRewind | input.go:162-169 | after `Rewind(mark)` into the content, `Pos()` is `mark` and `Position()` is unchanged |
| Selection.MoveExtendsLexeme | input.go:172-174 | a move extends the selection by exactly the bytes passed over |
| Selection.ResetSelectsPrefix | input.go:172-174 | from `Reset`, `Move(n)` selects the first `min(n, Len())` bytes |
| Selection.SkipIdempotent | input.go:177-186 | skipping twice is skipping once; `Shift` leaves the cursor `Skip` leaves; read head and position are kept |
| Selection.Tokenize | input.go:182-186 | rounds of `Move` then `Shift` keep the cursor valid and ordered over the same buffer, with one lexeme per round |
| Selection.TokenizeStep | input.go:182-186 | one round gives the first lexeme, and the rest continues from the cursor `Shift` leaves |
| Selection.TokensTile | input.go:182-186 | the lexemes plus the final selection are exactly the bytes from the first `start` to the final read head: none lost, none repeated |
| Selection.TokensAfterFirst | input.go:182-186 | after the first lexeme, the rest tile the bytes from the first lexeme's end |
| Traces.Walk | input_position_test.go:111-163 | byte-by-byte moves stay valid over the same buffer |
| Traces.EndingsMoveOne | input.go:144-151 | over "a\r\nb\n\rc\n\n", one `Move(1)` over `'\n'` starts the next line at column 1; over CR or any other byte it adds one column |
| Traces.TableSteps | input_position_test.go:106-163 | consecutive expected positions of the newline test differ as one byte's move says they should |
| Traces.TableRowStep | input_position_test.go:106-163 | one `Move(1)` from each row of the expected table reaches the next row |
| Traces.WalkFollowsTable | input_position_test.go:102-164 | whatever byte the sentinel displaced, after `k` single-byte moves the cursor holds the `k`-th expected line, column and last newline |
| Traces.EndingsTrace | input_position_test.go:102-164 | for any displaced byte, the newline test's positions (1,1) through (5,1): CR never ends a line, so CRLF and LF CR each count once |
| Traces.GreekLetter | input_position_test.go:21-25 | `MoveRune` over a two-byte Greek letter adds one column |
| Traces.GreekNewline | input_position_test.go:27-31 | `Move(1)` over the Greek sample's newlines starts the next line at column 1 |
| Traces.ForwardScript | input_position_test.go:16-49 | the forward stages stay valid and take a mark inside the content |
| Traces.BackScript | input_position_test.go:51-69 | after the backward stages, `Reset` reports (1,1) |
| Traces.PositionScript | input_position_test.go:11-70 | the test makes seven position checks after the start |
| Traces.GreekToMark | input_position_test.go:21-35 | from the loaded Greek sample, `MoveRune` reports (1,2) and `Move(1)` then reaches the mark at offset 3, line 2, column 1, last newline at 2 |
| Traces.GreekFromMark | input_position_test.go:37-49 | from the mark, two `MoveRune` report (2,3), and `Move(1)` plus `MoveRune` reach offset 10, line 3, column 2, last newline at 7 |
| Traces.GreekForward | input_position_test.go:16-49 | over "α\nβγ\nδ" the forward stages report (1,2), (2,1), (2,3), (3,2), as the test expects |
| Traces.GreekBack | input_position_test.go:51-69 | a negative `Move` and `Rewind` to the mark both still report (3,2), and `Reset` reports (1,1) |
| Traces.GreekScript | input_position_test.go:11-70 | the whole script reports (1,2), (2,1), (2,3), (3,2), (3,2), (3,2), (1,1); the test expects (2,1) at the fifth and sixth checks |
| Traces.GreekStart | input_position_test.go:13-14 | loading the Greek sample gives the cursor the script starts from, whether the sentinel displaced no byte or a spare-capacity byte (0 or any other) |
| Traces.SplitRuneDrifts | input.go:143-151 | over "α", two `Move(1)` report (1,3) while `PositionAt(2)` reports (1,2), so byte-wise moves that split a rune leave the cursor inconsistent |
| Traces.AlphaByte | input.go:143-151 | `Move(1)` over either byte of "α" alone adds one column, since each byte on its own counts as one rune |
| Seeking.SeekTo | input_position_test.go:166 | putting the read head at `p` and rescanning gives a valid, consistent cursor at `p` over the same buffer |
| Seeking.ScanIsConsistent | input.go:21-23 | line, column and last newline taken from a scan of the bytes before `pos` form a consistent cursor |
| Seeking.RewindClamped | input_position_test.go:166-196 | the intended `Rewind` clamps `start + mark` into `[0, Len()]` and leaves a consistent cursor there |
| Seeking.MoveSigned | input_position_test.go:51-56 | the intended `Move` is `Move` for `n >= 0`; for `n < 0` it lands at `max(pos+n, 0)` consistently |
| Seeking.RewindDoesNotClamp | input.go:167-169 | over "ab\ncd", for any displaced byte, `Offset()` after `Rewind(-1000)` is -1000 and after `Rewind(1000)` is 1000; neither cursor is valid and both report (1,1) |
| Seeking.ResetAfterRewind | input_position_test.go:179-187 | `Reset` after any `Rewind`, however far out of range, gives a valid cursor, the same one `Reset` gives without the rewind |
| Seeking.NegativeMoveStays | input.go:134-136 | a negative `Move` keeps the read head and position, whatever the count |
| Seeking.SeekIsPositionAt | input.go:218-229 | seeking reports exactly `PositionAt` of the target |
| Seeking.ConsistentIsUnique | input.go:21-23 | two consistent cursors over the same bytes at the same offset report the same position and last newline |
| Seeking.SeekAgreesWithForwardMove | input.go:133-153 | seeking to `p` reports what one `Move(p)` from `Reset` reports |
| Seeking.MoveBackToMark | input_position_test.go:51-56 | from a consistent cursor, the intended negative move back by `pos - mark` returns to the mark's line and column |
| Seeking.RewindToMark | input_position_test.go:58-63 | the intended rewind to a mark taken with the same `start` returns to the mark's line and column |
| Seeking.RewindClampsToOrigin | input_position_test.go:171-195 | the intended rewind far before the content lands at offset 0 with (1,1) |
| Seeking.AtOffsetZero | input.go:204-210 | any consistent cursor at offset 0 reports (1,1), the position `Reset` sets |
| Seeking.RewindClampsToEnd | input_position_test.go:178-184 | the intended rewind far past the content lands at `Len()` with `PositionAt(Len())` |

## Left out

- Reading from an `io.Reader` (`io.ReadAll` and the `Bytes()` shortcut, input.go:28-37) is I/O. `NewInput` takes a `Source` instead: no reader, the bytes read, or the failed read's error.
- `NewInputString` (input.go:52-54) only converts a string to a fresh byte slice. It is `NewInputBytes` of that slice. Whether `[]byte(s)` has spare capacity is up to the Go runtime, which rounds allocations up and zeroes the tail, so the sentinel displaces either nothing or a 0 byte. No operation but `Restore` reads the displaced byte, and the trace lemmas (`Traces.GreekStart`, `Traces.WalkFollowsTable`, `Seeking.RewindDoesNotClamp`) hold for every displaced byte.
- Slices share the caller's array in Go. The model abstracts the spare-capacity trick (input.go:71-80) as the `displaced` byte that `Restore` writes back, and the `restore` closure as that field.
- The three-index slices of `Lexeme`, `Shift` and `Bytes` cap the capacity of what they return. Capacity is not modelled; values are.
- Go errors are modelled as `EOF` or an opaque load-error message. Error wrapping and identity are left out.
- Go's `int` is 32 or 64 bits wide, depending on the platform. The model's integers are unbounded, so an overflow of `pos + n` for counts near the maximum `int` in `Move` is not modelled.
- Parse.Move: requires a valid cursor for a positive count. Go's `z.buf[z.pos:end]` panics when `pos` lies outside `[0, Len()]`, and the model also asks the selection start and the cached line and column of a valid cursor.
- Parse.Peek: requires the index to lie in the buffer, because Go panics on any other index. It also requires the buffer to end in the sentinel, which every cursor keeps until `Restore`.
- Parse.Lexeme: requires `start <= pos <= len(buf)`. Go slices up to the buffer's capacity, so in Go a read head rewound further into spare capacity still slices. The model holds no bytes beyond the sentinel.
- Parse.Shift: requires what `Lexeme` requires, for the same reason.
- Parse.MoveRune: requires a valid cursor, as `Move` with a positive count does. Go's `PeekRune(0)` only needs `pos` in the buffer.
- Parse.PeekRune: requires the bytes it reads to lie in the buffer, because Go panics otherwise. For `k != 0` the as-written guard can violate this (see Findings).
- Parse.PositionAt: requires `offset >= 0`, because Go panics on a negative offset.
- Parse.Restore: requires a non-empty buffer. Every cursor a constructor returns has one.
- Parse.Peek, Parse.PeekRune, Parse.Bytes and Parse.Reset: exclude a restored cursor whose caller's byte is not 0. `Restore` hands the buffer back to the caller, and the cursor must not be read after it. Go would still run on such a cursor, and `Peek(Len()-pos)` would then return the caller's byte instead of 0 (`Loading.RestoreDropsSentinel`).
- `unicode/utf8` and `bytes` are not part of this model. `Utf8` and `GoBytes` define the functions `input.go` calls, following Go's behaviour: `RuneCount` counts each invalid or truncated byte as one rune, as Go does.
- Tracking.MovePreservesConsistency: requires the line so far to end on a rune boundary. Without it, Go's incremental column can differ from `PositionAt`: moving byte by byte into a two-byte rune adds two columns where a rescan counts one (`Traces.SplitRuneDrifts`).
- The `PositionAt` test over "A\r\nBæ\n\U00100000C\rD\n\nE" (input_position_test.go:198-224) and the offsets test (input_position_test.go:73-99) are not worked through as concrete traces. `Tracking.MoveFromResetAgrees`, `Tracking.PositionAtClamps` and `Tracking.MoveRuneTracks` state what they check, for every input.
- The fuzz harnesses under `tests/` only call functions whose code is not part of this model.

## Findings

| source | as written | input that shows it | evidently intended | confidence | as-written member | corrected member |
|---|---|---|---|---|---|---|
| input.go:122-126 | `PeekRune(k)` measures the bytes left from `pos`, not from `pos+k`, the byte it decodes | "AB\xF0" at offset 0: `PeekRune(2)` infers three bytes and indexes past the buffer; "A\xC3": `PeekRune(1)` decodes the sentinel as a continuation byte | count the bytes left from `pos+k`, as `Lookahead.RuneWidthAhead` does, so that no decode reaches past the content | medium, not executed | Lookahead.PeekRuneAheadOutOfRange | Lookahead.AheadStaysInContent |
| input.go:167-169 | `Rewind` sets `pos = start + mark` without clamping and without recomputing line and column | "ab\ncd": after `Rewind(-1000)`, `Offset()` returns -1000 where the test expects 0; in "α\nβγ\nδ", `Rewind(mark)` reports (3,2) where the test expects (2,1) | clamp to `[0, Len()]` and rescan line and column, as input_position_test.go:166-196 and 58-63 expect | medium, not executed | Seeking.RewindDoesNotClamp | Seeking.RewindClamped |
| input.go:134-136 | `Move` returns at once for a negative count | "α\nβγ\nδ": `Move(-back)` back to the mark reports (3,2) where the test expects (2,1) | a negative count moves back, no further than offset 0, and rescans line and column, as input_position_test.go:51-56 expects | low, not executed | Traces.GreekScript | Seeking.MoveSigned |

The as-written `PeekRune` in `Parse` is used only at the read head, where both guards agree (`Lookahead.WidthsAgreeAtHead`), so `MoveRune` is unaffected. `Parse.Rewind` and `Parse.Move` keep the code's behaviour. The intended behaviour is proved in `Seeking`:

- `Seeking.RewindToMark` and `Seeking.MoveBackToMark` return to the mark's line and column.
- `Seeking.RewindClampsToOrigin` and `Seeking.RewindClampsToEnd` give the clamped positions the rewind test expects.

=== FILE: gobytes.dfy ===
/**
  Byte sequences and the two searches `input.go` borrows from Go's `bytes`
  package: counting the occurrences of one byte and finding its last index.
 */
module GoBytes {

  /** A Go `byte`: an unsigned 8-bit value. */
  newtype byte = b: int | 0 <= b < 256

  /** The line separator, `'\n'`. */
  const Newline: byte := 0x0A

  /** The number of occurrences of `c` in `s` (`bytes.Count(s, []byte{c})`). */
  function Count(s: seq<byte>, c: byte): (r: nat)
    ensures r <= |s|
  {
    if |s| == 0 then 0
    else Count(s[..|s| - 1], c) + (if s[|s| - 1] == c then 1 else 0)
  }

  /** The index of the last `c` in `s`, or -1 when there is none
      (`bytes.LastIndexByte`, which scans from the back). */
  function LastIndexByte(s: seq<byte>, c: byte): (r: int)
    ensures -1 <= r < |s|
    ensures r >= 0 ==> s[r] == c
  {
    if |s| == 0 then -1
    else if s[|s| - 1] == c then |s| - 1
    else LastIndexByte(s[..|s| - 1], c)
  }

  /** Adjacent slices join up. */
  lemma SliceJoin(s: seq<byte>, i: int, j: int, k: int)
    requires 0 <= i <= j <= k <= |s|
    ensures s[i..k] == s[i..j] + s[j..k]
  {
  }

  /** The front and back of a slice are slices of the whole. */
  lemma SliceOfSlice(s: seq<byte>, i: int, j: int, k: int)
    requires 0 <= i <= j <= |s| && 0 <= k <= j - i
    ensures s[i..j][..k] == s[i..i + k]
    ensures s[i..j][k..] == s[i + k..j]
  {
  }

  /** Concatenation is associative. */
  lemma JoinAssoc(a: seq<byte>, b: seq<byte>, c: seq<byte>)
    ensures (a + b) + c == a + (b + c)
  {
  }

  /** Counting distributes over concatenation. */
  lemma {:induction false} CountAppend(a: seq<byte>, b: seq<byte>, c: byte)
    ensures Count(a + b, c) == Count(a, c) + Count(b, c)
    decreases |b|
  {
    if |b| == 0 {
      assert a + b == a;
    } else {
      assert (a + b)[..|a + b| - 1] == a + b[..|b| - 1];
      CountAppend(a, b[..|b| - 1], c);
    }
  }

  /** The last `c` of `a + b` is in `b` when `b` has one, and otherwise it is
      the last `c` of `a`. */
  lemma {:induction false} LastIndexAppend(a: seq<byte>, b: seq<byte>, c: byte)
    ensures LastIndexByte(b, c) >= 0 ==> LastIndexByte(a + b, c) == |a| + LastIndexByte(b, c)
    ensures LastIndexByte(b, c) == -1 ==> LastIndexByte(a + b, c) == LastIndexByte(a, c)
    decreases |b|
  {
    if |b| == 0 {
      assert a + b == a;
    } else if b[|b| - 1] != c {
      assert (a + b)[..|a + b| - 1] == a + b[..|b| - 1];
      LastIndexAppend(a, b[..|b| - 1], c);
    }
  }

  /** A byte is counted exactly when it has a last occurrence. */
  lemma {:induction false} CountIsZeroWhenNoLast(s: seq<byte>, c: byte)
    ensures Count(s, c) == 0 <==> LastIndexByte(s, c) == -1
    decreases |s|
  {
    if |s| > 0 {
      CountIsZeroWhenNoLast(s[..|s| - 1], c);
    }
  }

  /** Every `c` of `s` lies at or before the last one. */
  lemma {:induction false} CountUpToLast(s: seq<byte>, c: byte)
    ensures Count(s[..LastIndexByte(s, c) + 1], c) == Count(s, c)
    decreases |s|
  {
    if |s| > 0 {
      var t := s[..|s| - 1];
      if s[|s| - 1] == c {
        assert s[..|s|] == s;
      } else {
        CountUpToLast(t, c);
        var k := LastIndexByte(t, c) + 1;
        assert t[..k] == s[..k];
      }
    }
  }

  /** `Count` is zero exactly when the byte does not occur. */
  lemma {:induction false} CountZero(s: seq<byte>, c: byte)
    ensures Count(s, c) == 0 <==> c !in s
    decreases |s|
  {
    if |s| > 0 {
      assert s == s[..|s| - 1] + [s[|s| - 1]];
      CountZero(s[..|s| - 1], c);
    }
  }

  /** `LastIndexByte` finds the last occurrence: nothing after it is `c`,
      and -1 means `c` does not occur at all. */
  lemma {:induction false} LastIndexIsLast(s: seq<byte>, c: byte)
    ensures forall j :: LastIndexByte(s, c) < j < |s| ==> s[j] != c
    ensures LastIndexByte(s, c) == -1 <==> c !in s
    decreases |s|
  {
    if |s| > 0 && s[|s| - 1] != c {
      var t := s[..|s| - 1];
      LastIndexIsLast(t, c);
      assert forall j :: 0 <= j < |t| ==> t[j] == s[j];
      assert s == t + [s[|s| - 1]];
    }
  }
}

=== FILE: input.dfy ===
/**
  The `Input` cursor of package `parse`: a byte buffer that ends in a 0
  sentinel, a selection `[start, pos)` over it, a non-validating UTF-8 rune
  peeker, and 1-based line/column tracking. Every Go method on `*Input` is a
  function from the old cursor to the new one (and its result, if any).
 */
module Parse {
  import opened GoBytes
  import Utf8

  datatype Option<T> = None | Some(value: T)

  /** The error `io.ReadAll` reported while loading; its text is opaque. */
  datatype LoadError = LoadError(message: string)

  /** What `Err`/`PeekErr` report: `io.EOF`, or the load error. */
  datatype Error = EOF | Load(cause: LoadError)

  /** The Go struct. `displaced` stands for the `restore` closure: when the
      sentinel was written into spare capacity of the caller's slice, it holds
      the byte that was there, which `Restore` writes back. */
  datatype Input = Input(
    buf: seq<byte>,
    pos: int,
    start: int,
    err: Option<LoadError>,
    displaced: Option<byte>,
    line: int,
    col: int,
    lastNewline: int)

  /** The shared one-byte buffer of empty or failed inputs. */
  const NullBuffer: seq<byte> := [0]

  function Min(a: int, b: int): int
  {
    if a <= b then a else b
  }

  /** `Len()`: the logical length, the buffer without its sentinel. After
      a load error it is 0. */
  function Len(z: Input): int
  {
    |z.buf| - 1
  }

  /** What every cursor keeps until `Restore`, whatever its read head: the
      buffer ends in the 0 sentinel, and a load error leaves only the
      sentinel. */
  predicate Terminated(z: Input)
  {
    && |z.buf| >= 1
    && z.buf[|z.buf| - 1] == 0
    && (z.err.Some? ==> |z.buf| == 1)
  }

  /** The invariant every constructor establishes and every cursor operation
      keeps: the buffer ends in the 0 sentinel, the indices lie in
      `[0, Len()]`, a load error leaves only the sentinel, and line and column
      are 1-based. */
  predicate Valid(z: Input)
  {
    && |z.buf| >= 1
    && z.buf[|z.buf| - 1] == 0
    && 0 <= z.pos <= Len(z)
    && 0 <= z.start <= Len(z)
    && (z.err.Some? ==> |z.buf| == 1)
    && z.line >= 1
    && z.col >= 1
  }

  /** The selection is well ordered, so `Lexeme` and `Shift` can slice it. */
  predicate Ordered(z: Input)
  {
    z.start <= z.pos
  }

  /** What Go's `z.buf[z.start:z.pos:z.pos]` needs: an ordered selection
      ending no further than the buffer's length. `Rewind` can put the read
      head one past the sentinel and the slice then still succeeds. Go
      allows anything up to the capacity, which the model does not hold. */
  predicate Selectable(z: Input)
  {
    Terminated(z) && 0 <= z.start <= z.pos <= |z.buf|
  }

  /** Cursor at the origin with line/column freshly reset. */
  predicate AtOrigin(z: Input)
  {
    z.start == 0 && z.pos == 0 && z.line == 1 && z.col == 1 && z.lastNewline == -1
  }

  // ---------------------------------------------------------------------
  // Buffer loading

  /** `NewInputBytes(b)`. `beyond` is `Some(c)` when `cap(b) > len(b)` and
      the caller's array holds `c` just past the content; the sentinel then
      overwrites `c` in place instead of reallocating. */
  function NewInputBytes(b: seq<byte>, beyond: Option<byte>): (z: Input)
    ensures Valid(z) && Ordered(z) && AtOrigin(z)
    ensures Len(z) == |b| && z.buf[..Len(z)] == b && z.buf[Len(z)] == 0
    ensures z.err == None
    ensures |b| == 0 ==> z.buf == NullBuffer && z.displaced == None
    ensures |b| > 0 ==> z.displaced == beyond
  {
    var z := Input([], 0, 0, None, None, 1, 1, -1);
    if |b| == 0 then
      z.(buf := NullBuffer)
    else
      match beyond
      case Some(c) => z.(buf := b + [0], displaced := Some(c))
      case None => z.(buf := b + [0])
  }

  /** Where `NewInput` gets its bytes: no reader, a reader whose content was
      read (or exposed through `Bytes()`), or a read that failed. */
  datatype Source =
    | NoReader
    | Content(data: seq<byte>, beyond: Option<byte>)
    | ReadFailed(cause: LoadError)

  /** `NewInput(r)` with the reading done: a failed read gives the error state
      over the null buffer; anything else is `NewInputBytes`. */
  function NewInput(src: Source): (z: Input)
    ensures Valid(z) && Ordered(z)
    ensures src.ReadFailed? ==> z.err == Some(src.cause) && Len(z) == 0 && z.displaced == None
    ensures src.ReadFailed? ==> z.pos == 0 && z.start == 0 && z.line == 1 && z.col == 1
    ensures src.NoReader? ==> z == NewInputBytes([], None)
    ensures src.Content? ==> z == NewInputBytes(src.data, src.beyond)
  {
    match src
    case NoReader => NewInputBytes([], None)
    case Content(data, beyond) => NewInputBytes(data, beyond)
    case ReadFailed(cause) =>
      // Go leaves lastNewline at its zero value here, not -1.
      Input(NullBuffer, 0, 0, Some(cause), None, 1, 1, 0)
  }

  /** `Restore`: put the displaced byte back past the content and disarm.
      The buffer is the caller's array, so it no longer ends in the sentinel
      and must not be read through this cursor afterwards. */
  function Restore(z: Input): (r: Input)
    requires |z.buf| >= 1
    ensures r.displaced == None
    ensures |r.buf| == |z.buf| && r.buf[..Len(r)] == z.buf[..Len(z)]
    ensures z.displaced.Some? ==> r.buf[Len(r)] == z.displaced.value
    ensures z.displaced.None? ==> r == z
    ensures r.pos == z.pos && r.start == z.start && r.line == z.line && r.col == z.col
  {
    match z.displaced
    case Some(c) => z.(buf := z.buf[..Len(z)] + [c], displaced := None)
    case None => z
  }

  // ---------------------------------------------------------------------
  // Lookahead and errors

  /** `PeekErr(k)`: the load error if there was one, otherwise nil while
      `pos+k` still names a content byte and `io.EOF` from the sentinel on. */
  function PeekErr(z: Input, k: int): (r: Option<Error>)
    ensures z.err.Some? ==> r == Some(Load(z.err.value))
    ensures z.err.None? ==> (r == None <==> z.pos + k < Len(z))
    ensures z.err.None? && r.Some? ==> r.value == EOF
  {
    if z.err.Some? then Some(Load(z.err.value))
    else if |z.buf| - 1 <= z.pos + k then Some(EOF)
    else None
  }

  /** `Err()`: the error at the read head. */
  function Err(z: Input): (r: Option<Error>)
    ensures r == None <==> z.err == None && z.pos < Len(z)
    ensures r == PeekErr(z, 0)
  {
    PeekErr(z, 0)
  }

  /** `Peek(k)`: the byte `k` past the read head. Go indexes the buffer with
      no check of its own, so the index must lie in the buffer; at `Len()` it
      reads the sentinel. */
  function Peek(z: Input, k: int): (r: byte)
    requires Terminated(z)
    requires 0 <= z.pos + k < |z.buf|
    ensures z.pos + k == Len(z) ==> r == 0
    ensures z.pos + k < Len(z) ==> r == Bytes(z)[z.pos + k]
  {
    z.buf[z.pos + k]
  }

  /** The byte length `PeekRune(k)` infers from the leading byte. The guard
      on the bytes left is measured from `pos`, not from `pos+k`. */
  function RuneWidth(z: Input, k: int): (n: int)
    requires 0 <= z.pos + k < |z.buf|
    ensures 1 <= n <= 4
  {
    var c := z.buf[z.pos + k];
    var left := |z.buf| - 1 - z.pos;
    if c < 0xC0 || left < 2 then 1
    else if c < 0xE0 || left < 3 then 2
    else if c < 0xF0 || left < 4 then 3
    else 4
  }

  /** The bytes `PeekRune(k)` reads are inside the buffer (Go panics
      otherwise). */
  predicate PeekRuneInBounds(z: Input, k: int)
  {
    0 <= z.pos + k < |z.buf| && z.pos + k + RuneWidth(z, k) <= |z.buf|
  }

  /** `PeekRune(k)`: the code point and byte length at `pos+k`, decoded
      without validation. The length comes from the leading byte alone,
      shortened when fewer bytes are left; the low bits of the leading byte
      and of each following byte are then packed together, six bits per
      following byte. Go masks with `&` and combines with `<<` and `|`; on
      these non-negative values a mask `2^b - 1` is `% 2^b`, and the shifted
      fields do not overlap, so `|` is `+`. */
  function PeekRune(z: Input, k: int): (r: (int, int))
    requires Terminated(z)
    requires PeekRuneInBounds(z, k)
    ensures r.1 == RuneWidth(z, k)
    ensures r.1 == 1 <==> (z.buf[z.pos + k] < 0xC0 || Len(z) - z.pos < 2)
    ensures r.1 == 1 ==> r.0 == z.buf[z.pos + k] as int
    ensures 0 <= r.0 < 0x200000
  {
    var c := Peek(z, k);
    if c < 0xC0 || |z.buf| - 1 - z.pos < 2 then
      (c as int, 1)
    else if c < 0xE0 || |z.buf| - 1 - z.pos < 3 then
      (c as int % 0x20 * 64 + Peek(z, k + 1) as int % 0x40, 2)
    else if c < 0xF0 || |z.buf| - 1 - z.pos < 4 then
      (c as int % 0x10 * 4096 + Peek(z, k + 1) as int % 0x40 * 64 + Peek(z, k + 2) as int % 0x40, 3)
    else
      (c as int % 0x08 * 262144 + Peek(z, k + 1) as int % 0x40 * 4096
         + Peek(z, k + 2) as int % 0x40 * 64 + Peek(z, k + 3) as int % 0x40, 4)
  }

  // ---------------------------------------------------------------------
  // Moving the read head

  /** `Move(n)`: advance `pos` by `n`, clamped to `Len()`, updating line and
      column from the bytes passed over only. A non-positive `n` does
      nothing, on any cursor, before `pos` is looked at. */
  function Move(z: Input, n: int): (r: Input)
    requires n <= 0 || Valid(z)
    ensures Valid(z) ==> Valid(r)
    ensures r.buf == z.buf && r.start == z.start && r.err == z.err && r.displaced == z.displaced
    ensures n <= 0 ==> r == z
    ensures n > 0 ==> r.pos == Min(z.pos + n, Len(z))
    ensures Ordered(z) ==> Ordered(r)
  {
    if n <= 0 then z
    else
      var end := Min(z.pos + n, Len(z));
      var moved := z.buf[z.pos..end];
      var newlines := Count(moved, Newline);
      if newlines > 0 then
        var last := z.pos + LastIndexByte(moved, Newline);
        z.(line := z.line + newlines, lastNewline := last,
           col := Utf8.RuneCount(z.buf[last + 1..end]) + 1, pos := end)
      else
        z.(col := z.col + Utf8.RuneCount(moved), pos := end)
  }

  /** `MoveRune()`: advance by the length `PeekRune(0)` infers. It always
      makes progress before the end and never passes it. */
  function MoveRune(z: Input): (r: Input)
    requires Valid(z)
    ensures Valid(r)
    ensures r == Move(z, RuneWidth(z, 0))
    ensures z.pos < Len(z) ==> z.pos < r.pos <= Min(z.pos + 4, Len(z))
    ensures z.pos == Len(z) ==> r == z
  {
    PeekRuneAtHead(z);
    var (_, n) := PeekRune(z, 0);
    Move(z, n)
  }

  /** At the read head `PeekRune` is always callable, and a length above one
      never reaches past the content. */
  lemma PeekRuneAtHead(z: Input)
    requires Valid(z)
    ensures PeekRuneInBounds(z, 0)
    ensures RuneWidth(z, 0) == 1 || z.pos + RuneWidth(z, 0) <= Len(z)
  {
  }

  // ---------------------------------------------------------------------
  // Selection

  /** `Pos()`: a mark relative to `start` for a later `Rewind`. */
  function Pos(z: Input): (m: int)
    ensures Ordered(z) <==> m >= 0
    ensures z.start + m == z.pos
  {
    z.pos - z.start
  }

  /** `Rewind(mark)`: set `pos` to `start + mark`. Go neither clamps the
      result nor recomputes line and column, so the cursor stays valid only
      when the mark lands inside the content. */
  function Rewind(z: Input, mark: int): (r: Input)
    ensures r.pos == z.start + mark
    ensures Ordered(r) <==> mark >= 0
    ensures r.buf == z.buf && r.start == z.start && Position(r) == Position(z)
    ensures Terminated(r) <==> Terminated(z)
    ensures Valid(z) ==> (Valid(r) <==> 0 <= z.start + mark <= Len(z))
  {
    z.(pos := z.start + mark)
  }

  /** `Lexeme()`: the bytes of the selection. Within the content it never
      holds the sentinel; a read head rewound one past the sentinel takes it
      in as the last byte. */
  function Lexeme(z: Input): (s: seq<byte>)
    requires Selectable(z)
    ensures |s| == Pos(z)
    ensures z.pos <= Len(z) ==> s == Bytes(z)[z.start..z.pos]
  {
    z.buf[z.start..z.pos]
  }

  /** `Skip()`: drop the selection by moving `start` up to `pos`. */
  function Skip(z: Input): (r: Input)
    ensures Valid(z) ==> Valid(r)
    ensures Ordered(r)
    ensures r.start == r.pos == z.pos
    ensures r.buf == z.buf && Position(r) == Position(z) && r.lastNewline == z.lastNewline
    ensures r.err == z.err && r.displaced == z.displaced
  {
    z.(start := z.pos)
  }

  /** `Shift()`: the selection's bytes, and the cursor with the selection
      dropped. */
  function Shift(z: Input): (r: (seq<byte>, Input))
    requires Selectable(z)
    ensures r.0 == Lexeme(z)
    ensures r.1 == Skip(z)
    ensures Lexeme(r.1) == []
  {
    var b := z.buf[z.start..z.pos];
    (b, z.(start := z.pos))
  }

  /** `Offset()`: the read head as an absolute index. */
  function Offset(z: Input): (o: int)
    ensures o == z.pos
    ensures Valid(z) ==> 0 <= o <= Len(z)
  {
    z.pos
  }

  /** `Bytes()`: the content, without the sentinel. */
  function Bytes(z: Input): (s: seq<byte>)
    requires Terminated(z)
    ensures |s| == Len(z)
    ensures s + [0] == z.buf
  {
    z.buf[..|z.buf| - 1]
  }

  /** `Reset()`: back to the origin, with line/column restarted, from any
      cursor, wherever its read head was left. */
  function Reset(z: Input): (r: Input)
    requires Terminated(z)
    ensures Valid(r) && Ordered(r) && AtOrigin(r)
    ensures r.buf == z.buf && r.err == z.err && r.displaced == z.displaced
  {
    z.(start := 0, pos := 0, line := 1, col := 1, lastNewline := -1)
  }

  // ---------------------------------------------------------------------
  // Line and column

  /** `Position()`: the line and column kept up to date by `Move`. */
  function Position(z: Input): (r: (int, int))
    ensures r.0 == z.line && r.1 == z.col
    ensures Valid(z) ==> r.0 >= 1 && r.1 >= 1
  {
    (z.line, z.col)
  }

  /** Line and column of offset `off` in `s` by a scan from the start: the
      line is one more than the number of `'\n'` before `off`, the column one
      more than the runes between the last of them and `off`. */
  function ScanPosition(s: seq<byte>, off: int): (r: (int, int))
    requires 0 <= off <= |s|
    ensures r.0 >= 1 && r.1 >= 1
  {
    var last := LastIndexByte(s[..off], Newline);
    var line := Count(s[..last + 1], Newline) + 1;
    var col := Utf8.RuneCount(s[last + 1..off]) + 1;
    (line, col)
  }

  /** `PositionAt(offset)`: line and column of `offset` computed from scratch.
      The offset is clamped to the whole buffer, sentinel included; a negative
      offset makes Go panic. */
  function PositionAt(z: Input, offset: int): (r: (int, int))
    requires offset >= 0
    ensures r.0 >= 1 && r.1 >= 1
  {
    ScanPosition(z.buf, if offset > |z.buf| then |z.buf| else offset)
  }
}

=== FILE: loading.dfy ===
/**
  Building a cursor and handing the caller's storage back: what
  `NewInputBytes` and `NewInput` leave in the buffer, and what `Restore`
  gives back.
 */
module Loading {
  import opened GoBytes
  import opened Parse

  /** `Bytes()` gives back exactly the bytes the cursor was built from, and
      the cursor starts at offset 0 with nothing selected and no error. */
  lemma BytesRoundTrip(b: seq<byte>, beyond: Option<byte>)
    ensures Bytes(NewInputBytes(b, beyond)) == b
    ensures Len(NewInputBytes(b, beyond)) == |b|
    ensures Offset(NewInputBytes(b, beyond)) == 0
    ensures Lexeme(NewInputBytes(b, beyond)) == []
  {
    var z := NewInputBytes(b, beyond);
    assert Bytes(z) == z.buf[..Len(z)];
  }

  /** `Len()` counts the content only: on every cursor not yet restored
      the byte at `Len()` is the sentinel, `Bytes()` is what comes before
      it, and after a load error there is no content at all. */
  lemma LenExcludesSentinel(z: Input)
    requires Terminated(z)
    ensures 0 <= Len(z) < |z.buf| && z.buf[Len(z)] == 0
    ensures |Bytes(z)| == Len(z) && z.buf == Bytes(z) + [z.buf[Len(z)]]
    ensures z.err.Some? ==> Len(z) == 0
  {
  }

  /** Empty input is the shared null buffer, already at EOF, whose only
      byte is the sentinel. */
  lemma EmptyInputIsAtEof(beyond: Option<byte>)
    ensures NewInputBytes([], beyond).buf == NullBuffer
    ensures Err(NewInputBytes([], beyond)) == Some(EOF)
    ensures Peek(NewInputBytes([], beyond), 0) == 0
  {
  }

  /** Loading from a reader: the read content behaves exactly like
      `NewInputBytes` of it, and no reader like empty input. */
  lemma NewInputLoads(data: seq<byte>, beyond: Option<byte>)
    ensures Bytes(NewInput(Content(data, beyond))) == data
    ensures NewInput(Content(data, beyond)).err == None
    ensures Err(NewInput(NoReader)) == Some(EOF)
  {
    BytesRoundTrip(data, beyond);
  }

  /** A failed read leaves an empty input that reports the read error at
      every offset, not `io.EOF`. */
  lemma LoadErrorEverywhere(e: LoadError, k: int)
    ensures Len(NewInput(ReadFailed(e))) == 0
    ensures Bytes(NewInput(ReadFailed(e))) == []
    ensures PeekErr(NewInput(ReadFailed(e)), k) == Some(Load(e))
    ensures Err(NewInput(ReadFailed(e))) == Some(Load(e))
  {
  }

  /** A second `Restore` does nothing. */
  lemma RestoreIdempotent(z: Input)
    requires |z.buf| >= 1
    ensures Restore(Restore(z)) == Restore(z)
  {
  }

  /** When the sentinel was written into spare capacity, `Restore` puts the
      caller's byte back behind the content; otherwise there is nothing to
      give back and the cursor is unchanged. */
  lemma RestoreGivesBackStorage(b: seq<byte>, beyond: Option<byte>)
    ensures |b| > 0 && beyond.Some? ==>
              Restore(NewInputBytes(b, beyond)).buf == b + [beyond.value]
    ensures |b| == 0 || beyond.None? ==>
              Restore(NewInputBytes(b, beyond)) == NewInputBytes(b, beyond)
  {
  }

  /** After `Restore` gives back a displaced byte, the buffer still ends in
      the sentinel exactly when that byte was 0, so the cursor must not be
      read through `Peek`, `PeekRune`, `Bytes` or `Reset` afterwards. */
  lemma RestoreDropsSentinel(b: seq<byte>, c: byte)
    requires |b| > 0
    ensures Terminated(NewInputBytes(b, Some(c)))
    ensures Terminated(Restore(NewInputBytes(b, Some(c)))) <==> c == 0
  {
  }
}

=== FILE: lookahead.dfy ===
/**
  Looking ahead without moving: the sentinel that ends every buffer, the
  errors `PeekErr` reports, and the code points `PeekRune` decodes.
 */
module Lookahead {
  import opened GoBytes
  import Utf8
  import opened Parse

  /** The byte at `Len()` is the 0 sentinel; with no load error `PeekErr`
      reports `io.EOF` exactly from there on. */
  lemma SentinelAtEnd(z: Input)
    requires Valid(z)
    ensures Peek(z, Len(z) - z.pos) == 0
    ensures z.err == None ==> PeekErr(z, Len(z) - z.pos) == Some(EOF)
    ensures z.err == None ==> (Err(z) == Some(EOF) <==> z.pos == Len(z))
  {
  }

  /** `Peek` and `PeekErr` agree: no error means a content byte, `io.EOF` at
      `Len()` means the sentinel. */
  lemma PeekAgreesWithPeekErr(z: Input, k: int)
    requires Valid(z) && 0 <= z.pos + k < |z.buf|
    ensures PeekErr(z, k) == None ==> Peek(z, k) == Bytes(z)[z.pos + k]
    ensures z.err == None && PeekErr(z, k) == Some(EOF) ==> Peek(z, k) == 0
  {
  }

  /** `Peek` after any `Rewind`, even one that leaves the read head before
      the content, reads the content byte at `start + mark + k` whenever that
      index lies in the content. */
  lemma PeekAfterRewind(z: Input, mark: int, k: int)
    requires Terminated(z) && 0 <= z.start + mark + k < Len(z)
    ensures Peek(Rewind(z, mark), k) == Bytes(z)[z.start + mark + k]
  {
  }

  // ---------------------------------------------------------------------
  // Decoding

  /** The two fields of a two-byte encoding pack back into the code point. */
  lemma PackTwo(r: int)
    requires 0x80 <= r < 0x800
    ensures 0xC0 <= Utf8.Encode(r)[0] < 0xE0
    ensures (Utf8.Encode(r)[0] as int) % 0x20 * 64 + (Utf8.Encode(r)[1] as int) % 0x40 == r
  {
    var q := r / 64;
    assert (0xC0 + q) % 0x20 == q;
    assert (0x80 + r % 64) % 0x40 == r % 64;
  }

  lemma PackThree(r: int)
    requires 0x800 <= r < 0x10000
    ensures 0xE0 <= Utf8.Encode(r)[0] < 0xF0
    ensures (Utf8.Encode(r)[0] as int) % 0x10 * 4096
            + (Utf8.Encode(r)[1] as int) % 0x40 * 64
            + (Utf8.Encode(r)[2] as int) % 0x40 == r
  {
    var q := r / 4096;
    var m := (r / 64) % 64;
    assert (0xE0 + q) % 0x10 == q;
    assert (0x80 + m) % 0x40 == m;
    assert (0x80 + r % 64) % 0x40 == r % 64;
    assert r / 64 == q * 64 + m;
  }

  lemma PackFour(r: int)
    requires 0x10000 <= r <= 0x10FFFF
    ensures 0xF0 <= Utf8.Encode(r)[0] < 0xF8
    ensures (Utf8.Encode(r)[0] as int) % 0x08 * 262144
            + (Utf8.Encode(r)[1] as int) % 0x40 * 4096
            + (Utf8.Encode(r)[2] as int) % 0x40 * 64
            + (Utf8.Encode(r)[3] as int) % 0x40 == r
  {
    var e := Utf8.Encode(r);
    var hi := r / 4096;
    var q := hi / 64;
    var m1 := hi % 64;
    var m2 := (r / 64) % 64;
    assert r / 262144 == q;
    assert (r / 64) / 64 == hi;
    assert (e[0] as int) % 0x08 == q by {
      assert (0xF0 + q) % 0x08 == q;
    }
    assert (e[1] as int) % 0x40 == m1 by {
      assert (0x80 + m1) % 0x40 == m1;
    }
    assert (e[2] as int) % 0x40 == m2 by {
      assert (0x80 + m2) % 0x40 == m2;
    }
    assert (e[3] as int) % 0x40 == r % 64 by {
      assert (0x80 + r % 64) % 0x40 == r % 64;
    }
    assert hi == q * 64 + m1;
    assert r / 64 == hi * 64 + m2;
    assert r == (r / 64) * 64 + r % 64;
  }

  /** The encoding of `r` sits at `pos + k` and the bytes left from the read
      head cover it. */
  predicate EncodedAt(z: Input, k: int, r: int)
    requires 0 <= r <= 0x10FFFF
  {
    && 0 <= z.pos + k
    && z.pos + k + |Utf8.Encode(r)| <= |z.buf|
    && |Utf8.Encode(r)| <= Len(z) - z.pos
    && z.buf[z.pos + k..z.pos + k + |Utf8.Encode(r)|] == Utf8.Encode(r)
  }

  /** `PeekRune` inverts the UTF-8 encoding: over the encoding of any code
      point it returns that code point and the encoding's length. It does
      not validate, so surrogates decode as well. */
  lemma PeekRuneDecodes(z: Input, k: int, r: int)
    requires Valid(z) && 0 <= r <= 0x10FFFF && EncodedAt(z, k, r)
    ensures PeekRuneInBounds(z, k)
    ensures PeekRune(z, k).0 == r
    ensures PeekRune(z, k).1 == |Utf8.Encode(r)|
  {
    var e := Utf8.Encode(r);
    var i := z.pos + k;
    assert forall j :: 0 <= j < |e| ==> z.buf[i + j] == e[j];
    if r < 0x80 {
    } else if r < 0x800 {
      PackTwo(r);
    } else if r < 0x10000 {
      PackThree(r);
    } else {
      PackFour(r);
    }
  }

  // ---------------------------------------------------------------------
  // PeekRune ahead of the read head

  /** The guard meant for `PeekRune(k)`: the bytes left counted from
      `pos + k`, the byte being decoded. */
  function RuneWidthAhead(z: Input, k: int): (n: int)
    requires 0 <= z.pos + k < |z.buf|
    ensures 1 <= n <= 4
    ensures n == 1 || z.pos + k + n <= Len(z)
  {
    var c := z.buf[z.pos + k];
    var left := |z.buf| - 1 - (z.pos + k);
    if c < 0xC0 || left < 2 then 1
    else if c < 0xE0 || left < 3 then 2
    else if c < 0xF0 || left < 4 then 3
    else 4
  }

  /** At the read head the guard as written and the intended one agree, so
      `MoveRune` is unaffected. */
  lemma WidthsAgreeAtHead(z: Input)
    requires Valid(z)
    ensures RuneWidth(z, 0) == RuneWidthAhead(z, 0)
  {
  }

  /** A content byte whose decoded width reaches past the content. */
  predicate ReadsPastContent(z: Input, k: int)
    requires 0 <= z.pos + k < |z.buf|
  {
    z.pos + k < Len(z) && z.pos + k + RuneWidth(z, k) > Len(z)
  }

  /** Over "A\xC3" with the read head at 0, `PeekRune(1)` takes the lone lead
      byte as the start of a two-byte rune whose second byte is the
      sentinel: the width 2 reaches past the content. */
  lemma PeekRuneAheadReadsSentinel()
    ensures var z := NewInputBytes([0x41, 0xC3], None);
            && PeekRuneInBounds(z, 1)
            && ReadsPastContent(z, 1)
            && PeekRune(z, 1) == (0xC0, 2)
  {
    var z := NewInputBytes([0x41, 0xC3], None);
    assert z.buf == [0x41, 0xC3, 0];
  }

  /** Over "AB\xF0" with the read head at 0, `Peek(2)` is fine but
      `PeekRune(2)` takes a three-byte width from a guard that still sees
      three bytes left, and its third byte lies past the buffer: Go indexes
      out of range. */
  lemma PeekRuneAheadOutOfRange()
    ensures var z := NewInputBytes([0x41, 0x42, 0xF0], None);
            && 0 <= z.pos + 2 < |z.buf|
            && RuneWidth(z, 2) == 3
            && !PeekRuneInBounds(z, 2)
            && PeekRuneInBounds(z, 0)
  {
    var z := NewInputBytes([0x41, 0x42, 0xF0], None);
    assert z.buf == [0x41, 0x42, 0xF0, 0];
  }

  /** With the intended guard no content byte decodes past the content. */
  lemma AheadStaysInContent(z: Input, k: int)
    requires Valid(z) && 0 <= z.pos + k < Len(z)
    ensures RuneWidthAhead(z, k) == 1 || z.pos + k + RuneWidthAhead(z, k) <= Len(z)
    ensures RuneWidthAhead(z, k) <= RuneWidth(z, k) || k < 0
  {
  }
}

=== FILE: seeking.dfy ===
/**
  Going back. `Move` ignores a negative count and `Rewind` neither clamps
  nor recomputes line and column, while the repository's position tests
  expect a negative `Move` to return to an earlier mark and `Rewind` to
  clamp into the content and recompute. This module states those intended
  operations, shows where the code as written differs, and proves that the
  intended ones return to exactly the line and column of the mark.
 */
module Seeking {
  import opened GoBytes
  import Utf8
  import opened Parse
  import Tracking

  /** Put the read head at `p` and recompute line, column and last newline
      by scanning the bytes before `p`. */
  function SeekTo(z: Input, p: int): (r: Input)
    requires Valid(z) && 0 <= p <= Len(z)
    ensures Valid(r) && Tracking.Consistent(r)
    ensures r.pos == p
    ensures r.buf == z.buf && r.start == z.start && r.err == z.err && r.displaced == z.displaced
  {
    var s := z.buf[..p];
    var ln := LastIndexByte(s, Newline);
    var r := Input(z.buf, p, z.start, z.err, z.displaced,
                   Count(s, Newline) + 1, Utf8.RuneCount(z.buf[ln + 1..p]) + 1, ln);
    ScanIsConsistent(r);
    r
  }

  /** A cursor whose line, column and last newline are the scan of the bytes
      before its read head is consistent. */
  lemma ScanIsConsistent(r: Input)
    requires Valid(r)
    requires r.lastNewline == LastIndexByte(r.buf[..r.pos], Newline)
    requires r.line == Count(r.buf[..r.pos], Newline) + 1
    requires r.col == Utf8.RuneCount(r.buf[r.lastNewline + 1..r.pos]) + 1
    ensures Tracking.Consistent(r)
  {
  }

  /** `p` clamped into `[lo, hi]`. */
  function Clamp(p: int, lo: int, hi: int): (c: int)
    requires lo <= hi
    ensures lo <= c <= hi
    ensures lo <= p <= hi ==> c == p
    ensures p < lo ==> c == lo
    ensures p > hi ==> c == hi
  {
    if p < lo then lo else if p > hi then hi else p
  }

  /** `Rewind(mark)` as the tests expect it: the target `start + mark` is
      clamped to `[0, Len()]` and line and column are recomputed there. */
  function RewindClamped(z: Input, mark: int): (r: Input)
    requires Valid(z)
    ensures Valid(r) && Tracking.Consistent(r)
    ensures r.pos == Clamp(z.start + mark, 0, Len(z))
    ensures r.buf == z.buf && r.start == z.start
  {
    SeekTo(z, Clamp(z.start + mark, 0, Len(z)))
  }

  /** `Move(n)` as the tests expect it: forward exactly as written, and a
      negative count moves back, no further than offset 0, recomputing line
      and column. */
  function MoveSigned(z: Input, n: int): (r: Input)
    requires Valid(z)
    ensures Valid(r) && r.buf == z.buf && r.start == z.start
    ensures n >= 0 ==> r == Move(z, n)
    ensures n < 0 ==> r.pos == Clamp(z.pos + n, 0, Len(z)) && Tracking.Consistent(r)
  {
    if n >= 0 then Move(z, n) else SeekTo(z, Clamp(z.pos + n, 0, Len(z)))
  }

  // ---------------------------------------------------------------------
  // The code as written

  /** "ab\ncd", the sample of the repository's rewind test. */
  const Sample: seq<byte> := [0x61, 0x62, 0x0A, 0x63, 0x64]

  /** `Rewind(-1000)` from the start of the sample leaves `Offset()` at
      -1000, where the test expects 0, and a cursor that is no longer valid;
      `Rewind(1000)` leaves it at 1000, far past the sentinel. Either way line
      and column stay (1,1). This holds whether or not the sentinel displaced
      a byte of the caller's. */
  lemma RewindDoesNotClamp(z: Input, beyond: Option<byte>)
    requires z == NewInputBytes(Sample, beyond)
    ensures Offset(Rewind(z, -1000)) == -1000 && !Valid(Rewind(z, -1000))
    ensures Offset(Rewind(z, 1000)) == 1000 && !Valid(Rewind(z, 1000))
    ensures Position(Rewind(z, -1000)) == Position(Rewind(z, 1000)) == (1, 1)
  {
  }

  /** `Reset` recovers from any rewind, however far out of range: the
      cursor is valid again and exactly the reset of the cursor before the
      rewind. The rewind test relies on this after `Rewind(1000)`. */
  lemma ResetAfterRewind(z: Input, mark: int)
    requires Terminated(z)
    ensures Valid(Reset(Rewind(z, mark)))
    ensures Reset(Rewind(z, mark)) == Reset(z)
  {
  }

  /** A negative `Move` leaves the cursor where it is, whatever the count:
      it never returns to an earlier mark. */
  lemma NegativeMoveStays(z: Input, n: int)
    requires Valid(z) && n < 0
    ensures Move(z, n).pos == z.pos && Position(Move(z, n)) == Position(z)
  {
  }

  // ---------------------------------------------------------------------
  // The intended operations

  /** Seeking reports what `PositionAt` computes for the target offset. */
  lemma SeekIsPositionAt(z: Input, p: int)
    requires Valid(z) && 0 <= p <= Len(z)
    ensures Position(SeekTo(z, p)) == PositionAt(z, p)
  {
    var r := SeekTo(z, p);
    Tracking.ConsistentIsPositionAt(r);
    Tracking.PositionAtReadsBuffer(r, z, p);
  }

  /** Two consistent cursors over the same buffer at the same offset agree
      on line, column and last newline. */
  lemma ConsistentIsUnique(a: Input, b: Input)
    requires Valid(a) && Valid(b) && Tracking.Consistent(a) && Tracking.Consistent(b)
    requires a.buf == b.buf && a.pos == b.pos
    ensures Position(a) == Position(b) && a.lastNewline == b.lastNewline
  {
    assert a.lastNewline == b.lastNewline by {
      assert a.buf[..a.pos] == b.buf[..b.pos];
    }
    assert Position(a) == Position(b) by {
      Tracking.ConsistentIsPositionAt(a);
      Tracking.ConsistentIsPositionAt(b);
      Tracking.PositionAtReadsBuffer(a, b, a.pos);
    }
  }

  /** Seeking to `p` lands where one forward `Move(p)` from a reset cursor
      lands: the scan and the incremental update agree. */
  lemma SeekAgreesWithForwardMove(z: Input, p: int)
    requires Valid(z) && 0 <= p <= Len(z)
    ensures Move(Reset(z), p).pos == p
    ensures Position(SeekTo(z, p)) == Position(Move(Reset(z), p))
  {
    Tracking.MoveFromResetAgrees(z, p);
    ConsistentIsUnique(SeekTo(z, p), Move(Reset(z), p));
  }

  /** The backward move the position test makes: from any consistent cursor
      at or after a mark taken on a consistent cursor over the same bytes,
      `MoveSigned(-(pos - mark))` returns to exactly the mark's line and
      column. */
  lemma MoveBackToMark(m: Input, z: Input)
    requires Valid(m) && Valid(z) && Tracking.Consistent(m) && Tracking.Consistent(z)
    requires m.buf == z.buf && m.pos <= z.pos
    ensures MoveSigned(z, -(z.pos - m.pos)).pos == m.pos
    ensures Position(MoveSigned(z, -(z.pos - m.pos))) == Position(m)
  {
    if z.pos == m.pos {
      assert MoveSigned(z, 0) == z;
      ConsistentIsUnique(z, m);
    } else {
      ConsistentIsUnique(MoveSigned(z, -(z.pos - m.pos)), m);
    }
  }

  /** The rewind the position test makes: with the selection start
      unchanged since the mark was taken, `RewindClamped(Pos(m))` returns to
      exactly the mark's line and column. */
  lemma RewindToMark(m: Input, z: Input)
    requires Valid(m) && Valid(z) && Tracking.Consistent(m)
    requires m.buf == z.buf && m.start == z.start
    ensures RewindClamped(z, Pos(m)).pos == m.pos
    ensures Position(RewindClamped(z, Pos(m))) == Position(m)
  {
    ConsistentIsUnique(RewindClamped(z, Pos(m)), m);
  }

  /** The clamping the rewind test expects far before the content: offset 0
      at line 1, column 1. */
  lemma RewindClampsToOrigin(z: Input, mark: int)
    requires Valid(z) && z.start + mark <= 0
    ensures RewindClamped(z, mark).pos == 0
    ensures Position(RewindClamped(z, mark)) == (1, 1)
  {
    AtOffsetZero(RewindClamped(z, mark));
  }

  /** Any consistent cursor at offset 0 reports line 1, column 1, as the
      reset cursor over the same buffer does. */
  lemma AtOffsetZero(r: Input)
    requires Valid(r) && Tracking.Consistent(r) && r.pos == 0
    ensures Position(r) == (1, 1)
  {
    Tracking.ConsistentIsPositionAt(r);
    Tracking.ResetIsConsistent(r);
  }

  /** The clamping the rewind test expects far past the content: offset
      `Len()` at `PositionAt(Len())`. */
  lemma RewindClampsToEnd(z: Input, mark: int)
    requires Valid(z) && z.start + mark >= Len(z)
    ensures RewindClamped(z, mark).pos == Len(z)
    ensures Position(RewindClamped(z, mark)) == PositionAt(z, Len(z))
  {
    SeekIsPositionAt(z, Len(z));
  }
}

=== FILE: selection.dfy ===
/**
  The selection `[start, pos)`: marks, rewinding, and cutting the input
  into lexemes with `Shift`.
 */
module Selection {
  import opened GoBytes
  import opened Parse
  import Tracking

  /** `Rewind(Pos())` is the identity: a mark taken now brings the cursor
      back to exactly this state. */
  lemma RewindToPos(z: Input)
    requires Valid(z)
    ensures 0 <= z.start + Pos(z) <= Len(z)
    ensures Rewind(z, Pos(z)) == z
  {
  }

  /** `Pos` after `Rewind(mark)` is `mark`: marks survive rewinding. */
  lemma PosAfterRewind(z: Input, mark: int)
    requires Valid(z) && 0 <= z.start + mark <= Len(z)
    ensures Pos(Rewind(z, mark)) == mark
    ensures Position(Rewind(z, mark)) == Position(z)
  {
  }

  /** A rewind one past the sentinel still lets `Lexeme` slice: the
      selection is the rest of the content and then the sentinel. */
  lemma LexemePastSentinel(z: Input)
    requires Valid(z)
    ensures Selectable(Rewind(z, |z.buf| - z.start))
    ensures Lexeme(Rewind(z, |z.buf| - z.start)) == Bytes(z)[z.start..] + [0]
  {
    assert z.buf == Bytes(z) + [0];
    assert z.buf[z.start..] == Bytes(z)[z.start..] + [0];
  }

  /** Moving extends the selection by exactly the bytes passed over. */
  lemma MoveExtendsLexeme(z: Input, n: int)
    requires Valid(z) && Ordered(z)
    ensures Lexeme(Move(z, n)) == Lexeme(z) + Tracking.Passed(z, n)
  {
    SliceJoin(z.buf, z.start, z.pos, Move(z, n).pos);
  }

  /** From a reset cursor, `Move(n)` selects the first `n` bytes (all of them
      when `n` is at least `Len()`). */
  lemma ResetSelectsPrefix(z: Input, n: int)
    requires Valid(z) && n >= 0
    ensures Lexeme(Move(Reset(z), n)) == Bytes(z)[..Min(n, Len(z))]
  {
    var r := Move(Reset(z), n);
    assert Lexeme(r) == z.buf[0..r.pos];
  }

  /** `Skip` and `Shift` both drop the selection and nothing else; doing it
      twice is doing it once. */
  lemma SkipIdempotent(z: Input)
    requires Valid(z)
    ensures Skip(Skip(z)) == Skip(z)
    ensures Ordered(z) ==> Shift(z).1 == Skip(z)
    ensures Skip(z).pos == z.pos && Position(Skip(z)) == Position(z)
  {
  }

  /** Cutting lexemes: for each `n`, `Move(n)` then `Shift()`, collecting
      the shifted bytes. */
  function Tokenize(z: Input, ns: seq<int>): (r: (seq<seq<byte>>, Input))
    requires Valid(z) && Ordered(z)
    ensures Valid(r.1) && Ordered(r.1)
    ensures r.1.buf == z.buf && |r.0| == |ns|
    ensures z.start <= r.1.start
    decreases |ns|
  {
    if |ns| == 0 then ([], z)
    else
      var m := Move(z, ns[0]);
      var rest := Tokenize(Skip(m), ns[1..]);
      ([Lexeme(m)] + rest.0, rest.1)
  }

  function Concat(ts: seq<seq<byte>>): seq<byte>
    decreases |ts|
  {
    if |ts| == 0 then [] else ts[0] + Concat(ts[1..])
  }

  /** One round of `Tokenize`: the first lexeme, then the rest from the
      cursor `Shift` leaves. */
  lemma TokenizeStep(z: Input, ns: seq<int>)
    requires Valid(z) && Ordered(z) && |ns| > 0
    ensures Concat(Tokenize(z, ns).0)
            == Lexeme(Move(z, ns[0])) + Concat(Tokenize(Skip(Move(z, ns[0])), ns[1..]).0)
    ensures Tokenize(z, ns).1 == Tokenize(Skip(Move(z, ns[0])), ns[1..]).1
    ensures Skip(Move(z, ns[0])).start == Move(z, ns[0]).pos
  {
    var r := Tokenize(z, ns);
    var m := Move(z, ns[0]);
    var rest := Tokenize(Skip(m), ns[1..]);
    assert r.0[0] == Lexeme(m) && r.0[1..] == rest.0;
  }

  /** A slice followed by a tiling of the next slice tiles both. */
  lemma TileJoin(b: seq<byte>, i: int, j: int, k: int, a: seq<byte>, c: seq<byte>, l: seq<byte>)
    requires 0 <= i <= j <= k <= |b|
    requires a == b[i..j] && c + l == b[j..k]
    ensures (a + c) + l == b[i..k]
  {
    SliceJoin(b, i, j, k);
    JoinAssoc(a, c, l);
  }

  /** The lexemes tile the input: together with what is still selected at
      the end they are exactly the bytes from the first `start` to the final
      read head, nothing lost and nothing repeated. */
  lemma {:induction false} TokensTile(z: Input, ns: seq<int>)
    requires Valid(z) && Ordered(z)
    ensures Concat(Tokenize(z, ns).0) + Lexeme(Tokenize(z, ns).1)
            == Bytes(z)[z.start..Tokenize(z, ns).1.pos]
    decreases |ns|, 1
  {
    if |ns| == 0 {
      assert Concat(Tokenize(z, ns).0) == [];
    } else {
      var m := Move(z, ns[0]);
      var rest := Tokenize(Skip(m), ns[1..]);
      assert Tokenize(z, ns) == ([Lexeme(m)] + rest.0, rest.1);
      TokensAfterFirst(z, ns);
      TileStep(Bytes(z), z.start, m.pos, rest.1.pos, Lexeme(m), rest.0, Lexeme(rest.1));
    }
  }

  /** The inductive step of `TokensTile`, over plain sequences: a first
      slice followed by a tiling of the next slice tiles both. */
  lemma TileStep(b: seq<byte>, i: int, j: int, k: int,
                 first: seq<byte>, rest: seq<seq<byte>>, last: seq<byte>)
    requires 0 <= i <= j <= k <= |b|
    requires first == b[i..j] && Concat(rest) + last == b[j..k]
    ensures Concat([first] + rest) + last == b[i..k]
  {
    assert ([first] + rest)[1..] == rest;
    TileJoin(b, i, j, k, first, Concat(rest), last);
  }

  /** The tiling after the first lexeme, over the same content. */
  lemma {:induction false} TokensAfterFirst(z: Input, ns: seq<int>)
    requires Valid(z) && Ordered(z) && |ns| > 0
    ensures Concat(Tokenize(Skip(Move(z, ns[0])), ns[1..]).0)
            + Lexeme(Tokenize(Skip(Move(z, ns[0])), ns[1..]).1)
            == Bytes(z)[Move(z, ns[0]).pos..Tokenize(Skip(Move(z, ns[0])), ns[1..]).1.pos]
    decreases |ns|, 0
  {
    var z1 := Skip(Move(z, ns[0]));
    TokensTile(z1, ns[1..]);
    assert Bytes(z1) == Bytes(z);
  }
}

=== FILE: traces.dfy ===
/**
  Concrete traces from the repository's position tests, worked through the
  model: which bytes end a line, and where `PositionAt` places offsets
  around multi-byte runes.
 */
module Traces {
  import opened GoBytes
  import Utf8
  import opened Parse
  import Tracking

  /** `Move(1)` applied `k` times. */
  function Walk(z: Input, k: nat): (r: Input)
    requires Valid(z)
    ensures Valid(r) && r.buf == z.buf
    decreases k
  {
    if k == 0 then z else Move(Walk(z, k - 1), 1)
  }

  /** "a\r\nb\n\rc\n\n": CR, LF and CRLF line endings mixed. */
  const Endings: seq<byte> := [0x61, 0x0D, 0x0A, 0x62, 0x0A, 0x0D, 0x63, 0x0A, 0x0A]

  /** The cursor over `Endings` with the read head at `pos`; `d` is the
      byte, if any, that the sentinel displaced. */
  function EndingsAt(pos: int, line: int, col: int, lastNewline: int, d: Option<byte>): Input
  {
    Input(Endings + [0], pos, 0, None, d, line, col, lastNewline)
  }

  /** One `Move(1)` over the sample: `'\n'` starts the next line at column 1
      and becomes the last newline; CR and every other byte add a column. */
  lemma EndingsMoveOne(k: int, line: int, col: int, lastNewline: int, d: Option<byte>)
    requires 0 <= k < |Endings| && line >= 1 && col >= 1
    ensures Valid(EndingsAt(k, line, col, lastNewline, d))
    ensures Endings[k] == Newline ==>
              Move(EndingsAt(k, line, col, lastNewline, d), 1) == EndingsAt(k + 1, line + 1, 1, k, d)
    ensures Endings[k] != Newline ==>
              Move(EndingsAt(k, line, col, lastNewline, d), 1)
              == EndingsAt(k + 1, line, col + 1, lastNewline, d)
  {
    var b := Endings + [0];
    assert b[k..k + 1] == [Endings[k]];
    assert [Endings[k]][..0] == [];
    assert b[k + 1..k + 1] == [];
    assert Utf8.RuneCount([Endings[k]]) == 1 by {
      Utf8.AsciiRuneCount([Endings[k]]);
    }
  }

  /** The positions the repository's newline test expects after each
      `Move(1)`, and the last-newline index the cursor keeps. */
  const Lines: seq<int> := [1, 1, 1, 2, 2, 3, 3, 3, 4, 5]
  const Cols: seq<int> := [1, 2, 3, 1, 2, 1, 2, 3, 1, 1]
  const LastNewlines: seq<int> := [-1, -1, -1, 2, 2, 4, 4, 4, 7, 8]

  /** Consecutive rows of the table differ as one `Move(1)` over the byte
      between them says they should. */
  lemma TableSteps(k: int)
    requires 1 <= k <= |Endings|
    ensures Lines[k - 1] >= 1 && Cols[k - 1] >= 1
    ensures Endings[k - 1] == Newline ==>
              Lines[k] == Lines[k - 1] + 1 && Cols[k] == 1 && LastNewlines[k] == k - 1
    ensures Endings[k - 1] != Newline ==>
              Lines[k] == Lines[k - 1] && Cols[k] == Cols[k - 1] + 1
              && LastNewlines[k] == LastNewlines[k - 1]
  {
    assert k in {1, 2, 3, 4, 5, 6, 7, 8, 9};
  }

  /** Whether the sentinel displaced a byte of the caller's or not, the
      `k`-th cursor of the walk holds the `k`-th row of the table. */
  lemma {:induction false} WalkFollowsTable(k: nat, beyond: Option<byte>)
    requires k <= |Endings|
    ensures Walk(NewInputBytes(Endings, beyond), k)
            == EndingsAt(k, Lines[k], Cols[k], LastNewlines[k], beyond)
  {
    if k == 0 {
      assert NewInputBytes(Endings, beyond) == EndingsAt(0, 1, 1, -1, beyond);
    } else {
      var z0 := NewInputBytes(Endings, beyond);
      assert Walk(z0, k) == Move(Walk(z0, k - 1), 1);
      WalkFollowsTable(k - 1, beyond);
      TableRowStep(k, beyond);
    }
  }

  /** One `Move(1)` from row `k - 1` of the table reaches row `k`. */
  lemma TableRowStep(k: int, d: Option<byte>)
    requires 1 <= k <= |Endings|
    ensures Move(EndingsAt(k - 1, Lines[k - 1], Cols[k - 1], LastNewlines[k - 1], d), 1)
            == EndingsAt(k, Lines[k], Cols[k], LastNewlines[k], d)
  {
    TableSteps(k);
    EndingsMoveOne(k - 1, Lines[k - 1], Cols[k - 1], LastNewlines[k - 1], d);
  }

  /** The trace the repository's newline test walks, one byte at a time
      from (1,1): CR never ends a line, LF always does, so CRLF counts once
      and LF CR counts once, ending at line 5, column 1. */
  lemma EndingsTrace(beyond: Option<byte>)
    ensures forall k :: 0 <= k <= |Endings| ==>
              Position(Walk(NewInputBytes(Endings, beyond), k)) == (Lines[k], Cols[k])
    ensures Lines[|Endings|] == 5 && Cols[|Endings|] == 1
  {
    forall k | 0 <= k <= |Endings|
      ensures Position(Walk(NewInputBytes(Endings, beyond), k)) == (Lines[k], Cols[k])
    {
      WalkFollowsTable(k, beyond);
    }
  }

  // ---------------------------------------------------------------------
  // Runes and the test's backward moves

  /** "α\nβγ\nδ": two-byte Greek letters around two newlines. */
  const Greek: seq<byte> := [0xCE, 0xB1, 0x0A, 0xCE, 0xB2, 0xCE, 0xB3, 0x0A, 0xCE, 0xB4]

  /** The cursor over `Greek` with the read head at `pos`; `d` is the
      byte, if any, that the sentinel displaced. */
  function GreekAt(pos: int, line: int, col: int, lastNewline: int, d: Option<byte>): Input
  {
    Input(Greek + [0], pos, 0, None, d, line, col, lastNewline)
  }

  /** `MoveRune` over a Greek letter: two bytes, one column. */
  lemma GreekLetter(k: int, line: int, col: int, lastNewline: int, d: Option<byte>)
    requires k == 0 || k == 3 || k == 5 || k == 8
    requires line >= 1 && col >= 1
    ensures Valid(GreekAt(k, line, col, lastNewline, d))
    ensures MoveRune(GreekAt(k, line, col, lastNewline, d)) == GreekAt(k + 2, line, col + 1, lastNewline, d)
  {
    var b := Greek + [0];
    var z := GreekAt(k, line, col, lastNewline, d);
    assert b[k] == 0xCE && 0x80 <= b[k + 1] <= 0xBF;
    assert RuneWidth(z, 0) == 2;
    var m := b[k..k + 2];
    assert m == [0xCE, b[k + 1]];
    assert Count(m, Newline) == 0 by {
      assert m[..1] == [0xCE] && m[..1][..0] == [];
    }
    assert Utf8.RuneCount(m) == 1 by {
      assert Utf8.Step(m) == 2;
      assert m[2..] == [];
    }
  }

  /** `Move(1)` over a newline of the Greek sample. */
  lemma GreekNewline(k: int, line: int, col: int, lastNewline: int, d: Option<byte>)
    requires k == 2 || k == 7
    requires line >= 1 && col >= 1
    ensures Valid(GreekAt(k, line, col, lastNewline, d))
    ensures Move(GreekAt(k, line, col, lastNewline, d), 1) == GreekAt(k + 1, line + 1, 1, k, d)
  {
    var b := Greek + [0];
    assert b[k] == Newline;
    assert b[k..k + 1] == [Newline];
    assert [Newline][..0] == [];
    assert b[k + 1..k + 1] == [];
  }

  /** The forward half of the repository's first position test:
      `MoveRune`, `Move(1)`, a mark, two `MoveRune`, `Move(1)`, `MoveRune`.
      The result holds `Position()` after each stage, the final cursor and
      the mark. */
  function ForwardScript(z: Input): (r: (seq<(int, int)>, Input, int))
    requires Valid(z) && z.start == 0
    ensures Valid(r.1) && r.1.start == 0 && 0 <= r.2 <= Len(r.1)
  {
    var z1 := MoveRune(z);
    var z2 := Move(z1, 1);
    var z4 := MoveRune(MoveRune(z2));
    var z6 := MoveRune(Move(z4, 1));
    ([Position(z1), Position(z2), Position(z4), Position(z6)], z6, Pos(z2))
  }

  /** The backward half: `Move(-back)` to return to the mark, `Move(back)`,
      `Rewind(mark)`, `Reset`, with `Position()` after each. */
  function BackScript(z: Input, mark: int): (ps: seq<(int, int)>)
    requires Valid(z) && z.start == 0 && 0 <= mark <= Len(z)
    ensures |ps| == 3 && ps[2] == (1, 1)
  {
    var back := Pos(z) - mark;
    var z7 := Move(z, -back);
    var z8 := Rewind(Move(z7, back), mark);
    [Position(z7), Position(z8), Position(Reset(z8))]
  }

  /** The whole test script. */
  function PositionScript(z: Input): (ps: seq<(int, int)>)
    requires Valid(z) && z.start == 0
    ensures |ps| == 7
  {
    var f := ForwardScript(z);
    f.0 + BackScript(f.1, f.2)
  }

  /** Up to the mark: over "α" and the first newline. */
  lemma GreekToMark(z: Input, d: Option<byte>)
    requires z == GreekAt(0, 1, 1, -1, d)
    ensures Position(MoveRune(z)) == (1, 2)
    ensures Move(MoveRune(z), 1) == GreekAt(3, 2, 1, 2, d)
  {
    GreekLetter(0, 1, 1, -1, d);
    GreekNewline(2, 1, 2, -1, d);
  }

  /** From the mark: over "βγ", the second newline and "δ". */
  lemma GreekFromMark(z: Input, d: Option<byte>)
    requires z == GreekAt(3, 2, 1, 2, d)
    ensures Position(MoveRune(MoveRune(z))) == (2, 3)
    ensures MoveRune(Move(MoveRune(MoveRune(z)), 1)) == GreekAt(10, 3, 2, 7, d)
  {
    var z3 := MoveRune(z);
    assert z3 == GreekAt(5, 2, 2, 2, d) by { GreekLetter(3, 2, 1, 2, d); }
    var z4 := MoveRune(z3);
    assert z4 == GreekAt(7, 2, 3, 2, d) by { GreekLetter(5, 2, 2, 2, d); }
    var z5 := Move(z4, 1);
    assert z5 == GreekAt(8, 3, 1, 7, d) by { GreekNewline(7, 2, 3, 2, d); }
    GreekLetter(8, 3, 1, 7, d);
  }

  /** The letters of the Greek sample advance one column each and its
      newlines start new lines. */
  lemma GreekForward(z: Input, d: Option<byte>)
    requires z == GreekAt(0, 1, 1, -1, d)
    ensures ForwardScript(z) == ([(1, 2), (2, 1), (2, 3), (3, 2)], GreekAt(10, 3, 2, 7, d), 3)
  {
    var z2 := Move(MoveRune(z), 1);
    GreekToMark(z, d);
    GreekFromMark(z2, d);
    var z6 := MoveRune(Move(MoveRune(MoveRune(z2)), 1));
    assert ForwardScript(z)
           == ([Position(MoveRune(z)), Position(z2), Position(MoveRune(MoveRune(z2))), Position(z6)],
               z6, Pos(z2));
  }

  /** Going back to the mark with a negative `Move` and `Rewind` leaves line
      and column where the forward moves left them. */
  lemma GreekBack(z: Input, d: Option<byte>)
    requires z == GreekAt(10, 3, 2, 7, d)
    ensures BackScript(z, 3) == [(3, 2), (3, 2), (1, 1)]
  {
    assert Move(z, -7) == z;
    assert Move(z, 7) == z by {
      assert (Greek + [0])[10..10] == [];
    }
  }

  /** Over "α\nβγ\nδ" the forward stages give (1,2), (2,1), (2,3), (3,2) as
      the test expects. `Move` with a negative count does nothing and
      `Rewind` keeps line and column, so the stages after the backward
      moves still report (3,2), where the test expects the mark's (2,1);
      `Reset` gives (1,1). */
  lemma GreekScript(z: Input, d: Option<byte>)
    requires z == GreekAt(0, 1, 1, -1, d)
    ensures PositionScript(z)[..4] == [(1, 2), (2, 1), (2, 3), (3, 2)]
    ensures PositionScript(z)[4..] == [(3, 2), (3, 2), (1, 1)]
  {
    var f := ForwardScript(z);
    GreekForward(z, d);
    GreekBack(f.1, d);
    assert PositionScript(z) == f.0 + BackScript(f.1, f.2);
  }

  /** Loading the Greek sample gives the cursor the script starts from,
      whether or not the sentinel displaced a byte of the caller's. */
  lemma GreekStart(beyond: Option<byte>)
    ensures NewInputBytes(Greek, beyond) == GreekAt(0, 1, 1, -1, beyond)
  {
  }

  // ---------------------------------------------------------------------
  // A move that splits a rune

  /** "α", one two-byte rune. */
  const Alpha: seq<byte> := [0xCE, 0xB1]

  /** Moving over "α" one byte at a time counts each byte as a rune of its
      own, since Go's `RuneCount` counts a truncated sequence and a stray
      continuation byte as one rune each: the column reaches 3, where a
      rescan of the same two bytes finds one rune and column 2. The cursor
      then no longer agrees with `PositionAt`. */
  lemma SplitRuneDrifts(z: Input, beyond: Option<byte>)
    requires z == NewInputBytes(Alpha, beyond)
    ensures Position(Move(Move(z, 1), 1)) == (1, 3)
    ensures PositionAt(z, 2) == (1, 2)
    ensures Move(Move(z, 1), 1).pos == 2 && !Tracking.Consistent(Move(Move(z, 1), 1))
  {
    assert z == AlphaAt(0, 1, beyond);
    AlphaByte(0, 1, beyond);
    AlphaByte(1, 2, beyond);
    AlphaRescan(beyond);
  }

  /** The cursor over `Alpha` on its first line, with the read head at `pos`. */
  function AlphaAt(pos: int, col: int, d: Option<byte>): Input
  {
    Input(Alpha + [0], pos, 0, None, d, 1, col, -1)
  }

  /** Each byte of "α" on its own is one rune, and neither is a `'\n'`. */
  lemma AlphaByte(k: int, col: int, d: Option<byte>)
    requires (k == 0 || k == 1) && col >= 1
    ensures Valid(AlphaAt(k, col, d))
    ensures Move(AlphaAt(k, col, d), 1) == AlphaAt(k + 1, col + 1, d)
  {
    var b := Alpha + [0];
    var m := b[k..k + 1];
    assert m == [b[k]] && m[1..] == [];
    assert Count(m, Newline) == 0 by {
      assert m[1..] == [];
    }
    assert Utf8.RuneCount(m) == 1;
  }

  /** Rescanning the two bytes finds one rune: column 2. */
  lemma AlphaRescan(d: Option<byte>)
    ensures PositionAt(AlphaAt(0, 1, d), 2) == (1, 2)
    ensures Utf8.RuneCount((Alpha + [0])[0..2]) == 1
    ensures LastIndexByte((Alpha + [0])[..2], Newline) == -1
  {
    var b := Alpha + [0];
    assert b[..2] == Alpha && b[0..2] == Alpha && b[..0] == [];
    assert Utf8.RuneCount(Alpha) == 1 by {
      assert Alpha[2..] == [];
    }
    assert LastIndexByte(Alpha, Newline) == -1;
  }
}

=== FILE: tracking.dfy ===
/**
  Line/column tracking: the incremental update inside `Move` against the
  from-scratch scan of `PositionAt`. A cursor is consistent when its cached
  line, column and last-newline index are what a scan of the bytes before
  `pos` gives.
 */
module Tracking {
  import opened GoBytes
  import Utf8
  import opened Parse

  /** Line, column and last newline agree with a scan of `buf[..pos]`. */
  predicate Consistent(z: Input)
    requires Valid(z)
  {
    var ln := LastIndexByte(z.buf[..z.pos], Newline);
    && z.lastNewline == ln
    && z.line == Count(z.buf[..z.pos], Newline) + 1
    && z.col == Utf8.RuneCount(z.buf[ln + 1..z.pos]) + 1
  }

  // ---------------------------------------------------------------------
  // PositionAt

  /** The scan in counting terms: the line counts every `'\n'` before `off`,
      the column counts the runes after the last of them. */
  lemma ScanCounts(s: seq<byte>, off: int)
    requires 0 <= off <= |s|
    ensures ScanPosition(s, off).0 == Count(s[..off], Newline) + 1
    ensures ScanPosition(s, off).1
            == Utf8.RuneCount(s[LastIndexByte(s[..off], Newline) + 1..off]) + 1
  {
    var p := s[..off];
    var ln := LastIndexByte(p, Newline);
    CountUpToLast(p, Newline);
    assert p[..ln + 1] == s[..ln + 1];
  }

  /** `PositionAt` in scan terms, at the clamped offset. */
  lemma PositionAtScan(z: Input, offset: int)
    requires offset >= 0
    ensures PositionAt(z, offset).0 == Count(z.buf[..Min(offset, |z.buf|)], Newline) + 1
    ensures PositionAt(z, offset).1
            == Utf8.RuneCount(z.buf[LastIndexByte(z.buf[..Min(offset, |z.buf|)], Newline) + 1
                                    ..Min(offset, |z.buf|)]) + 1
  {
    var off := Min(offset, |z.buf|);
    assert PositionAt(z, offset) == ScanPosition(z.buf, off);
    ScanCounts(z.buf, off);
  }

  /** A consistent cursor reports exactly what `PositionAt` computes for its
      read head. */
  lemma ConsistentIsPositionAt(z: Input)
    requires Valid(z) && Consistent(z)
    ensures Position(z) == PositionAt(z, z.pos)
  {
    var r := PositionAt(z, z.pos);
    assert r == ScanPosition(z.buf, z.pos);
    ScanCounts(z.buf, z.pos);
    assert r.0 == z.line;
    assert r.1 == z.col;
  }

  /** `PositionAt` clamps every offset past the buffer to the buffer's full
      length, sentinel included; line and column are at least 1. */
  lemma PositionAtClamps(z: Input, offset: int)
    requires offset >= 0
    ensures offset >= |z.buf| ==> PositionAt(z, offset) == PositionAt(z, |z.buf|)
    ensures PositionAt(z, offset).0 >= 1 && PositionAt(z, offset).1 >= 1
  {
  }

  /** Scanning one more ASCII byte that is not `'\n'` leaves the line and
      the last newline alone and adds one column. */
  lemma ScanPastAsciiByte(s: seq<byte>, a: byte)
    requires a < Utf8.RuneSelf && a != Newline
    ensures LastIndexByte(s + [a], Newline) == LastIndexByte(s, Newline)
    ensures Count(s + [a], Newline) == Count(s, Newline)
    ensures var ln := LastIndexByte(s, Newline);
            Utf8.RuneCount((s + [a])[ln + 1..]) == Utf8.RuneCount(s[ln + 1..]) + 1
  {
    NonNewlineAppend(s, a);
    AsciiAppendAfter(s, LastIndexByte(s, Newline) + 1, a);
  }

  /** A byte other than `'\n'` adds no newline. */
  lemma NonNewlineAppend(s: seq<byte>, a: byte)
    requires a != Newline
    ensures LastIndexByte(s + [a], Newline) == LastIndexByte(s, Newline)
    ensures Count(s + [a], Newline) == Count(s, Newline)
  {
    assert (s + [a])[..|s + [a]| - 1] == s;
  }

  /** An ASCII byte adds one rune to any tail it is appended to. */
  lemma AsciiAppendAfter(s: seq<byte>, i: int, a: byte)
    requires 0 <= i <= |s| && a < Utf8.RuneSelf
    ensures Utf8.RuneCount((s + [a])[i..]) == Utf8.RuneCount(s[i..]) + 1
  {
    assert (s + [a])[i..] == s[i..] + [a];
    Utf8.RuneCountAppendAscii(s[i..], a);
  }

  lemma PastEndLine(z: Input)
    requires Valid(z)
    ensures PositionAt(z, |z.buf|).0 == PositionAt(z, Len(z)).0
  {
    var s := z.buf[..Len(z)];
    assert z.buf == s + [0];
    assert z.buf[..|z.buf|] == z.buf;
    ScanPastAsciiByte(s, 0);
    PositionAtScan(z, Len(z));
    PositionAtScan(z, |z.buf|);
  }

  lemma PastEndColumn(z: Input)
    requires Valid(z)
    ensures PositionAt(z, |z.buf|).1 == PositionAt(z, Len(z)).1 + 1
  {
    var n := Len(z);
    var s := z.buf[..n];
    var ln := LastIndexByte(s, Newline);
    assert z.buf == s + [0];
    assert z.buf[..|z.buf|] == z.buf;
    ScanPastAsciiByte(s, 0);
    PositionAtScan(z, n);
    PositionAtScan(z, |z.buf|);
    assert z.buf[ln + 1..n] == s[ln + 1..];
    assert z.buf[ln + 1..|z.buf|] == (s + [0])[ln + 1..];
  }

  /** Because the clamp bound is the whole buffer, offsets past the content
      count the 0 sentinel as one more rune on the last line: this is not
      `PositionAt(Len())`. */
  lemma PositionAtPastEnd(z: Input)
    requires Valid(z)
    ensures PositionAt(z, |z.buf|).0 == PositionAt(z, Len(z)).0
    ensures PositionAt(z, |z.buf|).1 == PositionAt(z, Len(z)).1 + 1
  {
    PastEndLine(z);
    PastEndColumn(z);
  }

  /** `Reset` leaves a consistent cursor at line 1, column 1. */
  lemma ResetIsConsistent(z: Input)
    requires Valid(z)
    ensures Consistent(Reset(z))
    ensures Position(Reset(z)) == (1, 1)
    ensures PositionAt(z, 0) == (1, 1)
  {
    var e := z.buf[..0];
    assert e == [];
    assert LastIndexByte(e, Newline) == -1;
    assert Count(e, Newline) == 0;
    assert z.buf[0..0] == [];
    assert Utf8.RuneCount(z.buf[0..0]) == 0;
    assert Min(0, |z.buf|) == 0;
    PositionAtScan(z, 0);
    var pa := PositionAt(z, 0);
    assert pa.0 == 1 && pa.1 == 1;
  }

  // ---------------------------------------------------------------------
  // Move

  /** The bytes a `Move(n)` passes over. */
  function Passed(z: Input, n: int): seq<byte>
    requires Valid(z)
  {
    z.buf[z.pos..Move(z, n).pos]
  }

  /** A non-positive `Move` passes over nothing. */
  lemma NothingPassedBackward(z: Input, n: int)
    requires Valid(z) && n <= 0
    ensures Passed(z, n) == []
  {
    assert Move(z, n) == z;
  }

  /** Only `'\n'` bytes passed over add lines, one each. */
  lemma MoveCountsLines(z: Input, n: int)
    requires Valid(z)
    ensures Move(z, n).line == z.line + Count(Passed(z, n), Newline)
  {
    if n <= 0 {
      assert Passed(z, n) == [];
    }
  }

  /** Passing over no `'\n'` adds the runes passed over to the column and
      keeps the last-newline index. */
  lemma MoveWithinLine(z: Input, n: int)
    requires Valid(z) && Count(Passed(z, n), Newline) == 0
    ensures Move(z, n).col == z.col + Utf8.RuneCount(Passed(z, n))
    ensures Move(z, n).lastNewline == z.lastNewline
  {
    if n <= 0 {
      assert Passed(z, n) == [];
    }
  }

  /** Passing over a `'\n'` moves the last-newline index to the last of
      them and restarts the column after it. */
  lemma MoveAcrossLines(z: Input, n: int)
    requires Valid(z) && Count(Passed(z, n), Newline) > 0
    ensures Move(z, n).lastNewline == z.pos + LastIndexByte(Passed(z, n), Newline)
    ensures Move(z, n).col
            == Utf8.RuneCount(z.buf[Move(z, n).lastNewline + 1..Move(z, n).pos]) + 1
  {
    assert n > 0 by {
      if n <= 0 {
        NothingPassedBackward(z, n);
      }
    }
  }

  lemma MoveKeepsLine(z: Input, n: int)
    requires Valid(z) && z.line == Count(z.buf[..z.pos], Newline) + 1
    ensures Move(z, n).line == Count(z.buf[..Move(z, n).pos], Newline) + 1
  {
    var r := Move(z, n);
    var m := Passed(z, n);
    MoveCountsLines(z, n);
    SliceJoin(z.buf, 0, z.pos, r.pos);
    CountAppend(z.buf[..z.pos], m, Newline);
  }

  lemma MoveKeepsLastNewline(z: Input, n: int)
    requires Valid(z) && z.lastNewline == LastIndexByte(z.buf[..z.pos], Newline)
    ensures Move(z, n).lastNewline == LastIndexByte(z.buf[..Move(z, n).pos], Newline)
  {
    var r := Move(z, n);
    var m := Passed(z, n);
    SliceJoin(z.buf, 0, z.pos, r.pos);
    LastIndexAppend(z.buf[..z.pos], m, Newline);
    CountIsZeroWhenNoLast(m, Newline);
    if Count(m, Newline) == 0 {
      MoveWithinLine(z, n);
    } else {
      MoveAcrossLines(z, n);
    }
  }

  lemma MoveKeepsColumnWithinLine(z: Input, n: int)
    requires Valid(z) && -1 <= z.lastNewline < z.pos
    requires z.col == Utf8.RuneCount(z.buf[z.lastNewline + 1..z.pos]) + 1
    requires Utf8.WholeRunes(z.buf[z.lastNewline + 1..z.pos])
    requires Count(Passed(z, n), Newline) == 0
    ensures Move(z, n).col == Utf8.RuneCount(z.buf[z.lastNewline + 1..Move(z, n).pos]) + 1
  {
    var r := Move(z, n);
    var m := Passed(z, n);
    MoveWithinLine(z, n);
    SliceJoin(z.buf, z.lastNewline + 1, z.pos, r.pos);
    Utf8.RuneCountAppend(z.buf[z.lastNewline + 1..z.pos], m);
  }

  lemma MoveKeepsColumn(z: Input, n: int)
    requires Valid(z) && Consistent(z)
    requires Utf8.WholeRunes(z.buf[z.lastNewline + 1..z.pos])
    ensures -1 <= Move(z, n).lastNewline < Move(z, n).pos
    ensures Move(z, n).col == Utf8.RuneCount(z.buf[Move(z, n).lastNewline + 1..Move(z, n).pos]) + 1
  {
    if Count(Passed(z, n), Newline) == 0 {
      MoveWithinLine(z, n);
      ColumnWithinLine(z, n);
    } else {
      ColumnAcrossLines(z, n);
    }
  }

  /** `MoveKeepsColumn` when no `'\n'` is passed. */
  lemma ColumnWithinLine(z: Input, n: int)
    requires Valid(z) && -1 <= z.lastNewline < z.pos
    requires z.col == Utf8.RuneCount(z.buf[z.lastNewline + 1..z.pos]) + 1
    requires Utf8.WholeRunes(z.buf[z.lastNewline + 1..z.pos])
    requires Move(z, n).lastNewline == z.lastNewline
    requires Move(z, n).col == z.col + Utf8.RuneCount(Passed(z, n))
    ensures -1 <= Move(z, n).lastNewline < Move(z, n).pos
    ensures Move(z, n).col == Utf8.RuneCount(z.buf[Move(z, n).lastNewline + 1..Move(z, n).pos]) + 1
  {
    MoveStaysAhead(z, n);
    ColumnStep(z.buf, z.lastNewline + 1, z.pos, Move(z, n).pos, z.col, Move(z, n).col);
  }

  /** `Move` never goes back and never passes the end. */
  lemma MoveStaysAhead(z: Input, n: int)
    requires Valid(z)
    ensures z.pos <= Move(z, n).pos <= Len(z)
  {
  }

  /** A column counted from `i` to `j` extends to `k` by the runes from `j`
      to `k`, when `i..j` ends on a rune boundary. */
  lemma ColumnStep(b: seq<byte>, i: int, j: int, k: int, c: int, d: int)
    requires 0 <= i <= j <= k <= |b|
    requires c == Utf8.RuneCount(b[i..j]) + 1 && Utf8.WholeRunes(b[i..j])
    requires d == c + Utf8.RuneCount(b[j..k])
    ensures d == Utf8.RuneCount(b[i..k]) + 1
  {
    SliceJoin(b, i, j, k);
    Utf8.RuneCountAppend(b[i..j], b[j..k]);
  }

  /** `MoveKeepsColumn` when a `'\n'` is passed. */
  lemma ColumnAcrossLines(z: Input, n: int)
    requires Valid(z) && Count(Passed(z, n), Newline) > 0
    ensures -1 <= Move(z, n).lastNewline < Move(z, n).pos
    ensures Move(z, n).col == Utf8.RuneCount(z.buf[Move(z, n).lastNewline + 1..Move(z, n).pos]) + 1
  {
    MoveAcrossLines(z, n);
  }

  /** `Move` keeps a consistent cursor consistent whenever the bytes between
      the last newline and the read head end on a rune boundary, so that
      adding the runes of the moved span to the column is the same as
      recounting from the last newline. */
  lemma MovePreservesConsistency(z: Input, n: int)
    requires Valid(z) && Consistent(z)
    requires Utf8.WholeRunes(z.buf[z.lastNewline + 1..z.pos])
    ensures Consistent(Move(z, n))
  {
    var r := Move(z, n);
    assert r.buf == z.buf;
    ConsistentParts(z);
    assert r.line == Count(r.buf[..r.pos], Newline) + 1 by {
      MoveKeepsLine(z, n);
    }
    assert r.lastNewline == LastIndexByte(r.buf[..r.pos], Newline) by {
      MoveKeepsLastNewline(z, n);
    }
    assert r.col == Utf8.RuneCount(r.buf[r.lastNewline + 1..r.pos]) + 1 by {
      MoveKeepsColumn(z, n);
    }
    ConsistentByParts(r);
  }

  /** The three parts of `Consistent`, taken apart. */
  lemma ConsistentParts(z: Input)
    requires Valid(z) && Consistent(z)
    ensures z.line == Count(z.buf[..z.pos], Newline) + 1
    ensures z.lastNewline == LastIndexByte(z.buf[..z.pos], Newline)
    ensures z.col == Utf8.RuneCount(z.buf[z.lastNewline + 1..z.pos]) + 1
  {
  }

  /** The three parts of `Consistent`. */
  lemma ConsistentByParts(r: Input)
    requires Valid(r)
    requires r.line == Count(r.buf[..r.pos], Newline) + 1
    requires r.lastNewline == LastIndexByte(r.buf[..r.pos], Newline)
    requires r.col == Utf8.RuneCount(r.buf[r.lastNewline + 1..r.pos]) + 1
    ensures Consistent(r)
  {
  }

  /** `PositionAt` reads only the buffer. */
  lemma PositionAtReadsBuffer(a: Input, b: Input, offset: int)
    requires offset >= 0 && a.buf == b.buf
    ensures PositionAt(a, offset) == PositionAt(b, offset)
  {
  }

  /** The agreement the repository's test checks: from a reset cursor, one
      `Move(o)` reports the same line and column as `PositionAt` of the
      offset it reaches, for every input and every `o >= 0` (the offset is
      `o` itself whenever `o <= Len()`). */
  lemma MoveFromResetAgrees(z: Input, o: int)
    requires Valid(z) && o >= 0
    ensures Consistent(Move(Reset(z), o))
    ensures Move(Reset(z), o).pos == Min(o, Len(z))
    ensures Position(Move(Reset(z), o)) == PositionAt(z, Min(o, Len(z)))
  {
    var z0 := Reset(z);
    var r := Move(z0, o);
    ResetIsConsistent(z);
    assert z0.buf[z0.lastNewline + 1..z0.pos] == [];
    MovePreservesConsistency(z0, o);
    ConsistentIsPositionAt(r);
    PositionAtReadsBuffer(r, z, r.pos);
  }

  /** A sequence of `Move` calls. */
  function MoveAll(z: Input, ns: seq<int>): (r: Input)
    requires Valid(z)
    ensures Valid(r)
    ensures r.buf == z.buf && r.start == z.start
    ensures z.pos <= r.pos
    decreases |ns|
  {
    if |ns| == 0 then z else MoveAll(Move(z, ns[0]), ns[1..])
  }

  /** Any span of ASCII content ends on a rune boundary. */
  lemma AsciiSpanIsWhole(z: Input, i: int, j: int)
    requires Valid(z) && Utf8.IsAscii(Bytes(z))
    requires 0 <= i <= j <= Len(z)
    ensures Utf8.WholeRunes(z.buf[i..j])
  {
    var seg := z.buf[i..j];
    assert forall k :: 0 <= k < |seg| ==> seg[k] == Bytes(z)[i + k];
    Utf8.AsciiRuneCount(seg);
  }

  /** Over ASCII content every span ends on a rune boundary, so any
      sequence of moves from a consistent cursor keeps it consistent, and
      `Position()` is `PositionAt` of wherever the moves end. */
  lemma {:induction false} AsciiMovesStayConsistent(z: Input, ns: seq<int>)
    requires Valid(z) && Consistent(z)
    requires Utf8.IsAscii(Bytes(z))
    ensures Consistent(MoveAll(z, ns))
    ensures Position(MoveAll(z, ns)) == PositionAt(z, MoveAll(z, ns).pos)
    decreases |ns|
  {
    var r := MoveAll(z, ns);
    if |ns| == 0 {
      ConsistentIsPositionAt(z);
    } else {
      var z1 := Move(z, ns[0]);
      assert Consistent(z1) by {
        AsciiSpanIsWhole(z, z.lastNewline + 1, z.pos);
        MovePreservesConsistency(z, ns[0]);
      }
      assert Utf8.IsAscii(Bytes(z1)) by {
        assert Bytes(z1) == Bytes(z);
      }
      assert r == MoveAll(z1, ns[1..]);
      AsciiMovesStayConsistent(z1, ns[1..]);
      PositionAtReadsBuffer(z1, z, r.pos);
    }
  }

  // ---------------------------------------------------------------------
  // MoveRune over valid UTF-8

  /** The content from the read head on. */
  function Ahead(z: Input): seq<byte>
    requires Valid(z)
  {
    z.buf[z.pos..Len(z)]
  }

  /** Tracking over well-formed text: consistent, the current line so far is
      valid UTF-8 and so is everything still ahead of the read head. */
  predicate Tracked(z: Input)
  {
    && Valid(z)
    && Consistent(z)
    && Utf8.ValidUtf8(z.buf[z.lastNewline + 1..z.pos])
    && Utf8.ValidUtf8(Ahead(z))
  }

  /** Over valid UTF-8 the length `PeekRune(0)` infers is the width of the
      code point Go's decoder reads there. */
  lemma PeekRuneMatchesDecoder(z: Input)
    requires Valid(z) && z.pos < Len(z)
    requires Utf8.ValidUtf8(Ahead(z))
    ensures RuneWidth(z, 0) == Utf8.Step(Ahead(z))
  {
    assert Ahead(z)[0] == z.buf[z.pos];
  }

  /** A freshly reset cursor over valid UTF-8 is tracked. */
  lemma ResetIsTracked(z: Input)
    requires Valid(z) && Utf8.ValidUtf8(Bytes(z))
    ensures Tracked(Reset(z))
  {
    ResetTracksContent(z);
  }

  /** `ResetIsTracked` with the content read straight off the buffer. */
  lemma ResetTracksContent(z: Input)
    requires Valid(z) && Utf8.ValidUtf8(z.buf[..Len(z)])
    ensures Tracked(Reset(z))
  {
    var z0 := Reset(z);
    assert Consistent(z0) by {
      ResetIsConsistent(z);
    }
    assert Utf8.ValidUtf8(z0.buf[z0.lastNewline + 1..z0.pos]) by {
      assert z0.buf[z0.lastNewline + 1..z0.pos] == [];
    }
    AheadFromOrigin(z0, z);
  }

  /** From offset 0 everything is ahead. */
  lemma AheadFromOrigin(z0: Input, z: Input)
    requires Valid(z0) && Valid(z) && z0.buf == z.buf && z0.pos == 0
    ensures Ahead(z0) == z.buf[..Len(z)]
  {
  }

  /** Over valid UTF-8, `MoveRune` passes over exactly the first decoded
      code point and leaves the rest ahead. */
  lemma MoveRunePassesOneRune(z: Input)
    requires Valid(z) && z.pos < Len(z) && Utf8.ValidUtf8(Ahead(z))
    ensures Passed(z, RuneWidth(z, 0)) == Ahead(z)[..Utf8.Step(Ahead(z))]
    ensures Ahead(MoveRune(z)) == Ahead(z)[Utf8.Step(Ahead(z))..]
  {
    PeekRuneMatchesDecoder(z);
    MoveRunePassesWidth(z);
  }

  /** Moving by `RuneWidth(z, 0)` passes over that many bytes ahead. */
  lemma MoveRunePassesWidth(z: Input)
    requires Valid(z) && z.pos < Len(z)
    ensures Passed(z, RuneWidth(z, 0)) == Ahead(z)[..RuneWidth(z, 0)]
    ensures Ahead(Move(z, RuneWidth(z, 0))) == Ahead(z)[RuneWidth(z, 0)..]
  {
    MoveByWidth(z);
    AheadSplit(z, Move(z, RuneWidth(z, 0)).pos);
  }

  /** Splitting what is ahead at offset `e`. */
  lemma AheadSplit(z: Input, e: int)
    requires Valid(z) && z.pos <= e <= Len(z)
    ensures z.buf[z.pos..e] == Ahead(z)[..e - z.pos]
    ensures z.buf[e..Len(z)] == Ahead(z)[e - z.pos..]
  {
    SliceOfSlice(z.buf, z.pos, Len(z), e - z.pos);
  }

  /** Before the end, the width `PeekRune(0)` infers stays inside the
      content, so moving by it is not clamped. */
  lemma MoveByWidth(z: Input)
    requires Valid(z) && z.pos < Len(z)
    ensures z.pos + RuneWidth(z, 0) <= Len(z)
    ensures Move(z, RuneWidth(z, 0)).pos == z.pos + RuneWidth(z, 0)
  {
    PeekRuneAtHead(z);
  }

  /** After `MoveRune` over a `'\n'` the new line is empty so far. */
  lemma MoveRuneStartsLine(z: Input)
    requires Valid(z) && z.pos < Len(z) && Utf8.ValidUtf8(Ahead(z))
    requires z.buf[z.pos] == Newline
    ensures MoveRune(z).lastNewline + 1 == MoveRune(z).pos
  {
    var p := Ahead(z);
    var w := RuneWidth(z, 0);
    MoveRunePassesOneRune(z);
    Utf8.FirstRuneNewlines(p);
    assert p[0] == z.buf[z.pos];
    assert Passed(z, w) == [Newline];
    MoveAcrossLines(z, w);
  }

  /** After `MoveRune` over any other code point the current line so far
      is the old one plus that code point. */
  lemma MoveRuneExtendsLine(z: Input)
    requires Tracked(z) && z.pos < Len(z) && z.buf[z.pos] != Newline
    ensures Utf8.ValidUtf8(z.buf[MoveRune(z).lastNewline + 1..MoveRune(z).pos])
  {
    var r := MoveRune(z);
    var p := Ahead(z);
    var w := RuneWidth(z, 0);
    var m := Passed(z, w);
    MoveRunePassesOneRune(z);
    Utf8.FirstRuneNewlines(p);
    assert p[0] == z.buf[z.pos];
    Utf8.ValidFirstRune(p);
    MoveWithinLine(z, w);
    SliceJoin(z.buf, z.lastNewline + 1, z.pos, r.pos);
    Utf8.ValidAppend(z.buf[z.lastNewline + 1..z.pos], m);
  }

  /** After `MoveRune` the current line so far is still valid UTF-8. */
  lemma MoveRuneKeepsLineValid(z: Input)
    requires Tracked(z) && z.pos < Len(z)
    ensures Utf8.ValidUtf8(z.buf[MoveRune(z).lastNewline + 1..MoveRune(z).pos])
  {
    var r := MoveRune(z);
    if z.buf[z.pos] == Newline {
      MoveRuneStartsLine(z);
      assert z.buf[r.lastNewline + 1..r.pos] == [];
    } else {
      MoveRuneExtendsLine(z);
    }
  }

  /** `MoveRune` keeps the tracking invariant over valid UTF-8. */
  lemma MoveRuneKeepsTracked(z: Input)
    requires Tracked(z)
    ensures Tracked(MoveRune(z))
  {
    var r := MoveRune(z);
    if z.pos < Len(z) {
      assert Consistent(r) by {
        Utf8.ValidIsWhole(z.buf[z.lastNewline + 1..z.pos]);
        MovePreservesConsistency(z, RuneWidth(z, 0));
      }
      assert Utf8.ValidUtf8(Ahead(r)) by {
        MoveRunePassesOneRune(z);
        Utf8.ValidFirstRune(Ahead(z));
      }
      MoveRuneKeepsLineValid(z);
    }
  }

  /** `MoveRune` over a `'\n'`: the next line starts at column 1. */
  lemma MoveRuneOverNewline(z: Input)
    requires Valid(z) && z.pos < Len(z) && Utf8.ValidUtf8(Ahead(z))
    requires z.buf[z.pos] == Newline
    ensures Position(MoveRune(z)) == (z.line + 1, 1)
  {
    var r := MoveRune(z);
    var p := Ahead(z);
    var w := RuneWidth(z, 0);
    MoveRunePassesOneRune(z);
    Utf8.FirstRuneNewlines(p);
    assert p[0] == z.buf[z.pos];
    assert Passed(z, w) == [Newline];
    MoveCountsLines(z, w);
    MoveAcrossLines(z, w);
    assert z.buf[r.lastNewline + 1..r.pos] == [];
  }

  /** `MoveRune` over any other code point: one more column, whatever its
      byte length. */
  lemma MoveRuneOverOther(z: Input)
    requires Valid(z) && z.pos < Len(z) && Utf8.ValidUtf8(Ahead(z))
    requires z.buf[z.pos] != Newline
    ensures Position(MoveRune(z)) == (z.line, z.col + 1)
  {
    var p := Ahead(z);
    var w := RuneWidth(z, 0);
    MoveRunePassesOneRune(z);
    Utf8.ValidFirstRune(p);
    Utf8.FirstRuneNewlines(p);
    assert p[0] == z.buf[z.pos];
    MoveCountsLines(z, w);
    MoveWithinLine(z, w);
  }

  /** Over valid UTF-8, `MoveRune` keeps `Position()` equal to `PositionAt`
      and counts columns in code points: a `'\n'` starts the next line at
      column 1, any other code point, whatever its byte length, adds one
      column. */
  lemma MoveRuneTracks(z: Input)
    requires Tracked(z)
    ensures Tracked(MoveRune(z))
    ensures Position(MoveRune(z)) == PositionAt(z, MoveRune(z).pos)
    ensures z.pos < Len(z) && z.buf[z.pos] == Newline ==>
              Position(MoveRune(z)) == (z.line + 1, 1)
    ensures z.pos < Len(z) && z.buf[z.pos] != Newline ==>
              Position(MoveRune(z)) == (z.line, z.col + 1)
  {
    var r := MoveRune(z);
    MoveRuneKeepsTracked(z);
    if z.pos < Len(z) {
      if z.buf[z.pos] == Newline {
        MoveRuneOverNewline(z);
      } else {
        MoveRuneOverOther(z);
      }
    }
    ConsistentIsPositionAt(r);
    PositionAtReadsBuffer(r, z, r.pos);
  }
}

=== FILE: utf8.dfy ===
/**
  The part of Go's `unicode/utf8` that `input.go` relies on: `RuneCount`,
  which counts code points and counts every erroneous or truncated byte as a
  rune of width one. The decoder step follows Go's leading-byte table and its
  accepted ranges for the second byte; `Encode` is the standard UTF-8 encoding
  of a code point, used to state what the decoders recover.
 */
module Utf8 {
  import opened GoBytes

  /** Bytes below this are ASCII and encode themselves. */
  const RuneSelf: byte := 0x80

  /** The range of a continuation byte. */
  const LoCB: byte := 0x80
  const HiCB: byte := 0xBF

  /** The width Go's table gives a non-ASCII leading byte; 0 marks a byte
      that cannot start a sequence (0x80..0xC1 and 0xF5..0xFF). */
  function Size(c: byte): nat
  {
    if c < 0xC2 then 0
    else if c < 0xE0 then 2
    else if c < 0xF0 then 3
    else if c < 0xF5 then 4
    else 0
  }

  /** The accepted range of the byte after leading byte `c`; it is narrower
      than a continuation byte after E0, ED, F0 and F4, which rules out
      overlong forms, surrogates and values above U+10FFFF. */
  function AcceptLo(c: byte): byte
  {
    if c == 0xE0 then 0xA0 else if c == 0xF0 then 0x90 else LoCB
  }

  function AcceptHi(c: byte): byte
  {
    if c == 0xED then 0x9F else if c == 0xF4 then 0x8F else HiCB
  }

  predicate IsCont(b: byte)
  {
    LoCB <= b <= HiCB
  }

  /** The leading byte announces more bytes than `p` holds. */
  predicate Short(p: seq<byte>)
    requires |p| > 0
  {
    p[0] >= RuneSelf && Size(p[0]) > |p|
  }

  /** How many bytes Go's decoder consumes at the front of `p`: the width of
      a valid encoding, or 1 for an invalid or short one. */
  function Step(p: seq<byte>): (w: nat)
    requires |p| > 0
    ensures 1 <= w <= 4 && w <= |p|
    ensures w > 1 ==> w == Size(p[0]) && !Short(p)
  {
    var c := p[0];
    if c < RuneSelf then 1
    else if Size(c) == 0 then 1
    else if Size(c) > |p| then 1
    else if !(AcceptLo(c) <= p[1] <= AcceptHi(c)) then 1
    else if Size(c) == 2 then 2
    else if !IsCont(p[2]) then 1
    else if Size(c) == 3 then 3
    else if !IsCont(p[3]) then 1
    else 4
  }

  /** The step at the front of `p` decodes a genuine code point rather than
      an error byte. */
  predicate StepValid(p: seq<byte>)
    requires |p| > 0
  {
    p[0] < RuneSelf || Step(p) > 1
  }

  /** The number of runes in `p` (Go's `utf8.RuneCount`). */
  function RuneCount(p: seq<byte>): (r: nat)
    ensures r <= |p|
    decreases |p|
  {
    if |p| == 0 then 0 else 1 + RuneCount(p[Step(p)..])
  }

  /** Decoding `p` never runs out of bytes in the middle of a sequence, so
      every step it takes is decided by bytes of `p` alone. */
  predicate WholeRunes(p: seq<byte>)
    decreases |p|
  {
    |p| == 0 || (!Short(p) && WholeRunes(p[Step(p)..]))
  }

  /** Every step decodes a genuine code point (Go's `utf8.Valid`). */
  predicate ValidUtf8(p: seq<byte>)
    decreases |p|
  {
    |p| == 0 || (StepValid(p) && ValidUtf8(p[Step(p)..]))
  }

  predicate IsAscii(p: seq<byte>)
  {
    forall i :: 0 <= i < |p| ==> p[i] < RuneSelf
  }

  /** A step that is not short reads only bytes of `p`, so appending more
      bytes does not change it. */
  lemma StepAppend(p: seq<byte>, q: seq<byte>)
    requires |p| > 0 && !Short(p)
    ensures Step(p + q) == Step(p)
  {
    var c := p[0];
    assert (p + q)[0] == c;
    if c >= RuneSelf && Size(c) != 0 {
      assert forall i :: 0 <= i < Size(c) ==> (p + q)[i] == p[i];
    }
  }

  /** Every byte of a multi-byte step is non-ASCII, so in particular none of
      them is a `'\n'`. */
  lemma StepBytesHigh(p: seq<byte>)
    requires |p| > 0 && Step(p) > 1
    ensures forall i :: 0 <= i < Step(p) ==> p[i] >= RuneSelf
  {
  }

  /** Counting runes is additive when the first part ends on a rune
      boundary. */
  lemma {:induction false} RuneCountAppend(p: seq<byte>, q: seq<byte>)
    requires WholeRunes(p)
    ensures RuneCount(p + q) == RuneCount(p) + RuneCount(q)
    decreases |p|
  {
    if |p| == 0 {
      assert p + q == q;
    } else {
      var w := Step(p);
      StepAppend(p, q);
      assert (p + q)[w..] == p[w..] + q;
      RuneCountAppend(p[w..], q);
    }
  }

  /** Valid UTF-8 never ends in a truncated sequence. */
  lemma {:induction false} ValidIsWhole(p: seq<byte>)
    requires ValidUtf8(p)
    ensures WholeRunes(p)
    decreases |p|
  {
    if |p| > 0 {
      ValidIsWhole(p[Step(p)..]);
    }
  }

  /** Concatenating two valid spans gives a valid span. */
  lemma {:induction false} ValidAppend(p: seq<byte>, q: seq<byte>)
    requires ValidUtf8(p) && ValidUtf8(q)
    ensures ValidUtf8(p + q)
    decreases |p|
  {
    if |p| == 0 {
      assert p + q == q;
    } else {
      var w := Step(p);
      StepAppend(p, q);
      assert (p + q)[w..] == p[w..] + q;
      assert (p + q)[0] == p[0];
      ValidAppend(p[w..], q);
    }
  }

  /** The first step of a valid span is itself one valid rune, and the rest
      of the span is valid. */
  lemma {:induction false} ValidFirstRune(p: seq<byte>)
    requires |p| > 0 && ValidUtf8(p)
    ensures ValidUtf8(p[..Step(p)]) && ValidUtf8(p[Step(p)..])
    ensures RuneCount(p[..Step(p)]) == 1
  {
    var w := Step(p);
    var head := p[..w];
    StepAppend(head, p[w..]);
    assert head + p[w..] == p;
    assert head[w..] == [];
  }

  /** A `'\n'` is always a rune of its own, and no multi-byte rune contains
      one, so decoding never hides or splits a line break. */
  lemma FirstRuneNewlines(p: seq<byte>)
    requires |p| > 0
    ensures p[0] == Newline ==> Step(p) == 1
    ensures p[0] != Newline ==> Count(p[..Step(p)], Newline) == 0
  {
    var head := p[..Step(p)];
    if p[0] != Newline {
      if Step(p) == 1 {
        assert head == [p[0]];
        assert head[..0] == [];
      } else {
        StepBytesHigh(p);
        assert Newline !in head by {
          forall i | 0 <= i < |head| ensures head[i] != Newline {
            assert head[i] == p[i];
          }
        }
        CountZero(head, Newline);
      }
    }
  }

  /** An ASCII byte can never complete a sequence, so appending one to any
      bytes, well formed or not, adds exactly one rune. */
  lemma {:induction false} RuneCountAppendAscii(p: seq<byte>, a: byte)
    requires a < RuneSelf
    ensures RuneCount(p + [a]) == RuneCount(p) + 1
    decreases |p|
  {
    if |p| == 0 {
      assert p + [a] == [a];
      assert [a][1..] == [];
    } else {
      var w := Step(p);
      if Short(p) {
        assert Step(p + [a]) == 1;
      } else {
        StepAppend(p, [a]);
      }
      assert (p + [a])[w..] == p[w..] + [a];
      RuneCountAppendAscii(p[w..], a);
    }
  }

  /** In ASCII every byte is one rune. */
  lemma {:induction false} AsciiRuneCount(p: seq<byte>)
    requires IsAscii(p)
    ensures RuneCount(p) == |p|
    ensures ValidUtf8(p) && WholeRunes(p)
    decreases |p|
  {
    if |p| > 0 {
      assert Step(p) == 1;
      AsciiRuneCount(p[1..]);
    }
  }

  /** A Unicode scalar value: a code point that is not a surrogate. */
  predicate IsScalar(r: int)
  {
    0 <= r <= 0x10FFFF && !(0xD800 <= r <= 0xDFFF)
  }

  /** The UTF-8 encoding of code point `r`: a leading byte carrying the high
      bits, then continuation bytes carrying six bits each. */
  function Encode(r: int): (e: seq<byte>)
    requires 0 <= r <= 0x10FFFF
    ensures 1 <= |e| <= 4
    ensures |e| == 1 <==> r < 0x80
  {
    if r < 0x80 then [r as byte]
    else if r < 0x800 then [(0xC0 + r / 64) as byte, (0x80 + r % 64) as byte]
    else if r < 0x10000 then
      [(0xE0 + r / 4096) as byte, (0x80 + (r / 64) % 64) as byte, (0x80 + r % 64) as byte]
    else
      [(0xF0 + r / 262144) as byte, (0x80 + (r / 4096) % 64) as byte,
       (0x80 + (r / 64) % 64) as byte, (0x80 + r % 64) as byte]
  }

  /** Go's decoder accepts the encoding of every scalar value as exactly one
      valid rune; the surrogates are the code points it rejects. */
  lemma EncodeIsOneRune(r: int)
    requires IsScalar(r)
    ensures Step(Encode(r)) == |Encode(r)|
    ensures ValidUtf8(Encode(r))
    ensures RuneCount(Encode(r)) == 1
  {
    var e := Encode(r);
    if r < 0x80 {
    } else if r < 0x800 {
      EncodeStepTwo(r);
    } else if r < 0x10000 {
      EncodeStepThree(r);
    } else {
      EncodeStepFour(r);
    }
    assert e[|e|..] == [];
  }

  /** Two-byte encodings: the leading byte is C2..DF, never C0 or C1. */
  lemma EncodeStepTwo(r: int)
    requires 0x80 <= r < 0x800
    ensures Step(Encode(r)) == 2 && StepValid(Encode(r))
  {
  }

  /** Three-byte encodings: after E0 the second byte is at least A0, and
      after ED at most 9F, because surrogates are excluded. */
  lemma EncodeStepThree(r: int)
    requires 0x800 <= r < 0x10000 && !(0xD800 <= r <= 0xDFFF)
    ensures Step(Encode(r)) == 3 && StepValid(Encode(r))
  {
    var e := Encode(r);
    assert e[0] == 0xE0 ==> r >= 0x800 && r < 0x1000;
    assert e[0] == 0xED ==> r >= 0xD000 && r < 0xD800;
  }

  /** Four-byte encodings: after F0 the second byte is at least 90, and
      after F4 at most 8F. */
  lemma EncodeStepFour(r: int)
    requires 0x10000 <= r <= 0x10FFFF
    ensures Step(Encode(r)) == 4 && StepValid(Encode(r))
  {
    var e := Encode(r);
    assert e[0] == 0xF0 ==> r >= 0x10000 && r < 0x40000;
    assert e[0] == 0xF4 ==> r >= 0x100000;
  }
}
